=== FILE: README.md ===
# Point-of-sale and reporting core of the inventory system, in Dafny

This project models the selling side of a small MERN inventory application:

- the backend's POS checkout, which validates a cart, decrements stock, writes one `out` stock movement per line and stores a sale;
- the cashier's sales history and daily report;
- the administrator's reports: monthly and per-period sales, stock and inventory status, and the all-users daily report;
- the sale record with its schema rules;
- the React client's cart, and a few small page rules: stock badge, category totals and delete guard, auth state, registration form.

Everything is a pure function over immutable values:

- A `Store` holds three things: the product catalog (a map from id to product), the ledger of stock movements, and the sales. It also holds a counter that numbers new records.
- Money is an exact `real`, and the 2% tax is one fiftieth of the subtotal.
- Time is a local epoch in milliseconds, with a fixed day length of 86 400 000 ms. Day 0 (1 January 1970) is a Thursday.
- The wall clock, the query strings and the server's replies are parameters.

Modules follow the program's structure:

| module | file | what it holds |
|---|---|---|
| `Wrappers`, `Seqs`, `Money`, `Text` | wrappers.dfy, seqs.dfy, money.dfy, text.dfy | `Option`/`Result`, filtering, sums and totals, JS `trim`/`toLowerCase`/`includes` |
| `Calendar`, `ReportWindows` | calendar.dfy, windows.dfy | civil dates, `new Date(y, m, 1)`, the day, week, month and period windows |
| `Inventory`, `SaleModel` | inventory.dfy, sale.dfy | products and movements; the sale schema and `Sale.create` |
| `PosCheckout`, `CheckoutFacts` | checkout.dfy, checkout_facts.dfy | the checkout handler, and what it does to the store |
| `SafeCheckout`, `CheckoutScenarios` | safe_checkout.dfy, checkout_scenarios.dfy | the corrected checkout, and concrete carts that separate the two |
| `LedgerReports`, `PosQueries`, `Reports`, `ReportFacts` | ledger.dfy, pos_queries.dfy, reports.dfy, report_facts.dfy | movement totals, sales history and daily reports, admin reports, how a checkout shows up in them |
| `PosCart`, `ProductDetail`, `CategoryDetail`, `AuthContext`, `RegisterPage` | pos_cart.dfy and the rest | the client pages |

The client's `posService.checkout` sends `notes` as the empty string by default. That file is not part of this model. `PosCart.CheckoutPayload` sends `Some("")`, and the backend treats `""` like a missing note (`notes || …`).

## Model

Paths are relative to the repository root.

| member | source | states |
|---|---|---|
| Money.TotalsOf | backend/controllers/posController.js:66-70 | tax is one fiftieth of the subtotal and the total is subtotal plus tax (1.02 × subtotal) |
| Calendar.Midnight | backend/controllers/posController.js:187-188 | `setHours(0,0,0,0)`: a whole-day multiple at or before the instant, less than a day earlier |
| Calendar.NextMonthStart | backend/controllers/reportController.js:15-16 | the first of the next month is the first of this month plus its day count; after December comes January of the next year |
| Calendar.JsFullYear | backend/controllers/reportController.js:15 | the Date constructor reads years 0..99 as 1900..1999 and leaves every other year as given |
| Calendar.MonthStartNext | backend/controllers/reportController.js:15-16 | `new Date(y, m + 1, 1)` lies exactly one month length after `new Date(y, m, 1)`, for any month index (overflow rolls into the next year) |
| Calendar.MonthStartBrackets | backend/controllers/reportController.js:169-171 | any valid date lies at or after the first of its month and before the first of the next |
| Calendar.TimeOf | backend/controllers/reportController.js:150 | the instant of a valid local date falls on that date's day number, and its midnight is the instant less its time of day |
| ReportWindows.DayWindow | backend/controllers/reportController.js:155-159 | the day window starts at a midnight, lasts one day and contains its reference instant |
| ReportWindows.DaysSinceMonday | backend/controllers/reportController.js:162-163 | `(weekday + 6) % 7` is in 0..6 and stepping back that many days lands on a Monday |
| ReportWindows.WeekWindow | backend/controllers/reportController.js:160-168 | the week window starts at a Monday midnight, lasts seven days and contains its reference instant |
| ReportWindows.MonthWindow | backend/controllers/reportController.js:169-171 | the month window starts on the first of the month and is as long as that month |
| ReportWindows.DecemberRollsOver | backend/controllers/reportController.js:16 | month index 12 ends the December window on 1 January of the next year |
| ReportWindows.MonthWindowContains | backend/controllers/reportController.js:12-16 | the window of a date's own month contains that date |
| ReportWindows.ParsePeriod | backend/controllers/reportController.js:149-174 | an absent period is daily; exactly "daily", "weekly" and "monthly" are accepted, and each one parses back to its own name |
| ReportWindows.PeriodNameRoundTrip | backend/controllers/reportController.js:155-172 | every period's name parses back to that period |
| ReportWindows.PeriodWindow | backend/controllers/reportController.js:155-171 | daily, weekly and monthly periods use the day, week and month windows of the reference date |
| ReportWindows.PeriodWindowContains | backend/controllers/reportController.js:152-171 | every period window contains its reference instant |
| ReportWindows.WednesdayWeek | backend/controllers/reportController.js:160-168 | Wednesday 17 January 2024 at 15:00 falls in the week from Monday the 15th to Monday the 22nd |
| SaleModel.ParsePaymentMethod | backend/models/Sale.js:40-44 | only "cash", "card" and "other" are accepted, and each is stored under its own spelling |
| SaleModel.MethodNameRoundTrip | backend/models/Sale.js:42 | every stored payment method parses back to itself |
| SaleModel.ItemsErrors | backend/models/Sale.js:3-24 | no item error exactly when every item has productId, quantity, unitPrice and itemTotal (productName optional) |
| SaleModel.SchemaErrors | backend/models/Sale.js:26-53 | no error exactly when the sale is acceptable; a method outside the enum is always reported |
| SaleModel.CreateSale | backend/models/Sale.js:26-64 | stored exactly when acceptable, otherwise refused with a non-empty error list; stored fields are copied; the method defaults to cash, notes are trimmed and the date defaults to now |
| PosCheckout.CheckLine | backend/controllers/posController.js:33-63 | unknown product gives 404-kind ProductNotFound; stock below the line gives NotEnoughStock naming product and stock; otherwise the line priced at the read price |
| PosCheckout.ValidateLines | backend/controllers/posController.js:29-64 | passes exactly when every line is valid against the unchanged catalog; on failure the first invalid line's error is reported |
| PosCheckout.NoteFor | backend/controllers/posController.js:85 | the caller's notes when non-empty, else "POS Sale - Payment: " followed by the method |
| PosCheckout.SaleMovements | backend/controllers/posController.js:75-90 | one `out` movement per processed line, in cart order, with consecutive ids, the line's product and quantity, the note, actor and time |
| PosCheckout.Checkout | backend/controllers/posController.js:9-141 | empty cart, then missing method, refused with the store unchanged; an invalid line refused with the store unchanged; only a refused sale leaves writes behind; no failure adds a sale; success needs a valid cart and a known method |
| CheckoutFacts.CheckoutSucceedsIff | backend/controllers/posController.js:15-108 | checkout succeeds exactly when validation passes and the payment method is in the sale enum |
| CheckoutFacts.ValidatedLines | backend/controllers/posController.js:52-63 | a validated cart yields one line per cart line with the product's name and price, the line quantity and price × quantity |
| CheckoutFacts.ApplyStockOutside | backend/controllers/posController.js:75-78 | a product no line names is left exactly as it was |
| CheckoutFacts.ApplyStockLastWriteWins | backend/controllers/posController.js:77-78 | a product holds the copy saved by its last line: the validation-time copy less that line's quantity |
| CheckoutFacts.ApplyStockNonNegative | backend/controllers/posController.js:77-78 | saving copies with non-negative stock keeps every stock non-negative |
| CheckoutFacts.LineWritesStockEffect | backend/controllers/posController.js:44-78 | with distinct products, each cart product loses exactly its line quantity and stays ≥ 0; other products untouched |
| CheckoutFacts.CheckoutStockEffect | backend/controllers/posController.js:45-78 | after validation, with distinct products: each cart product loses its line quantity and stays ≥ 0, others untouched, whether or not the sale is stored |
| CheckoutFacts.CheckoutLedgerEffect | backend/controllers/posController.js:73-90 | after validation the ledger keeps its old movements and gains one `out` movement per line, in order, by the actor, with the note |
| CheckoutFacts.CheckoutProducts | backend/controllers/posController.js:75-78 | after validation the catalog is the line writes applied to the old catalog |
| CheckoutFacts.DraftBecomesSale | backend/controllers/posController.js:92-108 | a draft of priced lines with a known method is stored as a consistent sale of exactly those lines, cashier, method, date and movement ids |
| CheckoutFacts.CommitCreatesSale | backend/controllers/posController.js:72-131 | with a known method: writes, then one appended sale numbered after the movements, holding the trimmed note; the receipt repeats its id, movement ids and totals, lists each line's name ("" when absent), quantity, unit price and line total in order, and gives the method as sent and the sale's date |
| CheckoutFacts.CommitRefusesSale | backend/controllers/posController.js:92-108 | with an unknown method the writes stay and the sale is refused for the payment method alone |
| CheckoutFacts.UnknownMethodPartialWrite | backend/controllers/posController.js:72-140 | a validated cart with a method outside the enum: 500, no sale, but the stock and one movement per line are already written |
| CheckoutFacts.CheckoutSaleRecord | backend/controllers/posController.js:92-131 | a successful checkout appends one consistent sale of the cart lines at validation-time prices, by the actor, referencing the new movements; the receipt repeats it |
| CheckoutFacts.CheckoutReceipt | backend/controllers/posController.js:93-129 | a successful checkout's receipt lists every cart line with the product's name, the quantity, the validation-time price and price × quantity, in cart order, and gives the method as sent and the sale's date; the stored sale's note is the trimmed `notes \|\| "POS Sale - Payment: …"` |
| CheckoutFacts.CheckoutCharges | backend/controllers/posController.js:52-70 | a validated checkout with a known method succeeds, and its receipt's subtotal, tax and total are the sum of the validated line totals with the flat 2% tax |
| CheckoutFacts.CheckoutKeepsStockNonNegative | backend/controllers/posController.js:44-78 | no checkout, successful or not, makes a stored quantity negative |
| CheckoutFacts.WriteLinesKeepsIdsOrdered | backend/controllers/posController.js:80-89 | new movements are numbered after every existing record, in creation order |
| CheckoutFacts.CommitKeepsIdsOrdered | backend/controllers/posController.js:73-108 | the mutation phase keeps movements and sales in increasing id order, below the next id |
| CheckoutFacts.CheckoutKeepsIdsOrdered | backend/controllers/posController.js:9-141 | every checkout keeps movements and sales in increasing id order |
| SafeCheckout.CheckoutCorrected | backend/controllers/posController.js:9-141 | the corrected handler: every refusal leaves the store unchanged, and success needs a known payment method |
| SafeCheckout.StagedPriced | backend/controllers/posController.js:33-63 | staged validation yields one priced line per cart line, all with positive quantity |
| SafeCheckout.StagedStockEffect | backend/controllers/posController.js:45-78 | after staged validation each product loses its total demand over all lines and cart products stay ≥ 0 |
| SafeCheckout.DemandOutside | backend/controllers/posController.js:33-35 | a product no line names is demanded zero times |
| SafeCheckout.CorrectedStockEffect | backend/controllers/posController.js:44-78 | a corrected success takes each product's total demand off its stock, never below zero, with positive line quantities |
| SafeCheckout.StagedMatchesPlain | backend/controllers/posController.js:33-64 | on carts with distinct products and positive quantities, staged validation equals the original validation |
| SafeCheckout.CorrectedAgreesOnWellFormedCarts | backend/controllers/posController.js:9-141 | with distinct products, positive quantities and a known method, the corrected and original checkouts coincide |
| CheckoutScenarios.TwoLineReceipt | backend/controllers/posController.js:53-70 | two widgets at 100 and one gadget at 50 give subtotal 250, tax 5, total 255 |
| CheckoutScenarios.TwoLineWrites | backend/controllers/posController.js:75-108 | the same checkout writes two movements and one sale of two lines |
| CheckoutScenarios.TwoLineStock | backend/controllers/posController.js:77-78 | the same checkout leaves 8 widgets and 2 gadgets |
| CheckoutScenarios.OverStockLeavesStoreUnchanged | backend/controllers/posController.js:45-50 | four gadgets against a stock of three are refused naming the stock, with a 400 and the store unchanged |
| CheckoutScenarios.DuplicateLinesOversell | backend/controllers/posController.js:33-78 | two lines of one widget against a stock of one both pass and two units are sold |
| CheckoutScenarios.DuplicateLinesRefusedWhenStaged | backend/controllers/posController.js:33-50 | the corrected checkout refuses the same cart, with the store unchanged |
| CheckoutScenarios.NegativeQuantityRestocks | backend/controllers/posController.js:45 | a line of −3 widgets is accepted, raises the stock to 3 and records a subtotal of −300 |
| CheckoutScenarios.NegativeQuantityRefused | backend/controllers/posController.js:44-50 | the corrected checkout refuses the negative quantity, with the store unchanged |
| CheckoutScenarios.UnknownMethodWritesThenFails | backend/controllers/posController.js:93 | paying by "bitcoin" answers 500 after writing stock and a movement, and stores no sale |
| CheckoutScenarios.UnknownMethodRefused | backend/controllers/posController.js:22-27 | the corrected checkout refuses "bitcoin" with a 400 before writing anything |
| LedgerReports.SoldQuantity | backend/controllers/posController.js:205-206 | an `out` movement adds its quantity to the items sold, an `in` movement nothing |
| LedgerReports.FirstDangling | backend/controllers/posController.js:207 | absent exactly when every `out` movement's product still exists; otherwise the first one that does not |
| LedgerReports.DayReportOf | backend/controllers/posController.js:201-218 | fails (500) exactly on an `out` movement of a deleted product; otherwise counts all movements, items sold are the summed quantities of the `out` movements, the subtotal is each `out` movement's quantity × its product's current price summed, and tax and total follow from it |
| LedgerReports.AmountAt | backend/controllers/posController.js:207 | an `out` movement of an existing product brings in quantity × that product's current price |
| LedgerReports.RevenueIsOutAmounts | backend/controllers/posController.js:204-209 | the running revenue equals the sum, over just the `out` movements, of quantity × current price |
| LedgerReports.RevenueAppend | backend/controllers/posController.js:204-209 | revenue over two runs of movements is the sum of their revenues |
| LedgerReports.RevenueOfInbound | backend/controllers/posController.js:205 | `in` movements bring in no revenue |
| LedgerReports.SoldOfInbound | backend/controllers/posController.js:205 | `in` movements add no items sold |
| LedgerReports.InboundCountsOnlyAsTransactions | backend/controllers/posController.js:204-218 | adding `in` movements raises the transaction count only; items and money are unchanged |
| LedgerReports.ItemsSoldIsOutQuantity | backend/controllers/posController.js:204-209 | items sold is the summed quantity of the `out` movements alone |
| LedgerReports.RevenueSamePrices | backend/controllers/posController.js:207 | revenue uses current prices: two catalogs with the same products and prices give the same revenue |
| LedgerReports.RevenueMatchesItems | backend/controllers/posController.js:207 | while prices are unchanged, revenue over sale movements equals the sum of the sale's line totals |
| PosQueries.Insert | backend/controllers/posController.js:154 | inserting into a newest-first list keeps it newest-first and adds exactly that movement |
| PosQueries.SortNewestFirst | backend/controllers/posController.js:154 | the result is newest-first and a permutation of the input |
| PosQueries.Page | backend/controllers/posController.js:155-156 | skip, then keep `limit` (0 keeps all, a negative limit its magnitude): a contiguous slice of the right length |
| PosQueries.ConsecutivePages | backend/controllers/posController.js:155-156 | the pages at skip 0 and skip k of size k together form the first page of size 2k |
| PosQueries.MovementsBy | backend/controllers/posController.js:152 | exactly the actor's movements, each as often as the ledger holds it, and no other movement |
| PosQueries.PageOfSorted | backend/controllers/posController.js:152-156 | every page of a newest-first list is newest-first, drawn from it, and at most `limit` long |
| PosQueries.SalesHistory | backend/controllers/posController.js:146-179 | fails only on a negative skip; limit 20 and skip 0 by default; total is the number of the actor's movements, each counted as often as the ledger holds it; the page is the actor's, newest first, skipped then limited |
| PosQueries.CashierMovementsIn | backend/controllers/posController.js:194-197 | exactly the actor's movements inside the window, each as often as the ledger holds it |
| PosQueries.DailyReport | backend/controllers/posController.js:184-234 | the actor's report for the day of `now`: succeeds exactly when all their `out` movements are priced; counts all their movements; items are the quantities of their `out` movements, the subtotal those quantities at current prices |
| Reports.OrDefault | backend/controllers/reportController.js:12-13 | a missing or zero value gives the fallback; any other value is kept |
| Reports.SalesIn | backend/controllers/reportController.js:19 | exactly the sales dated inside the window |
| Reports.Summarize | backend/controllers/reportController.js:19-32 | covers exactly the sales in the window, counts them, and derives tax and total from the subtotal |
| Reports.ItemsOf | backend/controllers/reportController.js:24-29 | every line item of every sale appears in the flattened list |
| Reports.PerSaleSumsAreItemSums | backend/controllers/reportController.js:24-29 | summing per sale and then across sales equals one sum over all line items |
| Reports.SummaryIsItemSums | backend/controllers/reportController.js:182-187 | a summary's units and subtotal are the sums of quantity and itemTotal over every item of every sale in the window |
| Reports.MonthlyReportOf | backend/controllers/reportController.js:8-51 | month and year default to the reference date's when missing or zero, and the summary covers that month's window |
| Reports.SalesByPeriod | backend/controllers/reportController.js:147-210 | refused (400) exactly for a period outside the three names; otherwise summarizes that period's window around the given date or now |
| Reports.ConsistentTotalsSum | backend/controllers/reportController.js:31-32 | for consistent sales the item sums equal the stored subtotals, and the recomputed total equals the sum of stored totals |
| Reports.SummaryOfConsistentSales | backend/controllers/reportController.js:176-190 | for consistent sales a summary's subtotal and total are the sums of the stored sale subtotals and totals |
| Reports.AdjacentWindowsSumInt | backend/controllers/reportController.js:182-187 | an integer sum over [a, c) splits into the sums over [a, b) and [b, c) |
| Reports.AdjacentWindowsSumReal | backend/controllers/reportController.js:182-187 | a money sum over [a, c) splits into the sums over [a, b) and [b, c) |
| Reports.AdjacentWindowsCount | backend/controllers/reportController.js:176 | the sales in [a, c) number those in [a, b) plus those in [b, c) |
| Reports.AdjacentWindowsAdd | backend/controllers/reportController.js:176-190 | two adjacent windows' summaries add up to the summary of their union |
| Reports.RecordedSaleJoinsSummary | backend/controllers/reportController.js:176-190 | storing a consistent sale dated in the window adds one sale, its units and its subtotal |
| Reports.StockReportOf | backend/controllers/reportController.js:76-97 | threshold defaults to 5; the low-stock list holds exactly the catalog products with 0 < quantity ≤ threshold, each as often as in the catalog, and the out-of-stock list exactly those with quantity 0; the counts are the list lengths |
| Reports.InventoryStatusOf | backend/controllers/reportController.js:56-71 | the whole catalog, with its length as the count |
| Reports.MovementsIn | backend/controllers/reportController.js:109-111 | exactly the movements inside the window, any user, each as often as the ledger holds it |
| Reports.AdminDailyReport | backend/controllers/reportController.js:102-142 | all users' report for the day of `now`: succeeds exactly when all `out` movements are priced; counts all movements; items are the `out` quantities, the subtotal those quantities at current prices |
| ReportFacts.ApplyStockKeepsPrices | backend/controllers/posController.js:77-78 | the line writes change stock only: products and prices stay |
| ReportFacts.WrittenRevenue | backend/controllers/posController.js:207 | the checkout's movements bring in exactly the validated line totals |
| ReportFacts.DayGrowsByLines | backend/controllers/posController.js:204-209 | appending priced `out` movements by the user in the window grows the day report by their count, quantities and line totals |
| ReportFacts.LinesFeedCashierDay | backend/controllers/posController.js:75-90 | the line writes grow the cashier's daily report by one movement per line, the quantities and the line totals |
| ReportFacts.CheckoutFeedsCashierDay | backend/controllers/posController.js:184-234 | after a validated checkout the cashier's daily report grows by the lines, the quantities and the line totals, whether or not the sale is stored |
| ReportFacts.CommitSaleInCashierDay | backend/controllers/posController.js:93-108 | a stored sale's units and subtotal are exactly what the cashier's day report gains |
| ReportFacts.ValidatedSaleInCashierDay | backend/controllers/posController.js:33-108 | the same for the lines a passed validation produces: the day report gains the sale's units and subtotal, which the receipt repeats |
| ReportFacts.CheckoutSaleInCashierDay | backend/controllers/posController.js:204-212 | after a successful checkout the cashier's day gains the sale's units and its subtotal, which the receipt repeats |
| ReportFacts.CheckoutJoinsSalesSummary | backend/controllers/reportController.js:176-190 | after a successful checkout every window containing now counts one more sale with its units and subtotal |
| ReportFacts.SingleCashierDaysCoincide | backend/controllers/reportController.js:109-111 | when one cashier made every movement of the day, the admin and cashier selections coincide |
| Text.TrimStart | backend/models/Sale.js:56 | removes exactly the leading whitespace |
| Text.TrimEnd | backend/models/Sale.js:56 | removes exactly the trailing whitespace |
| Text.TrimEmptyIff | inventory-frontend/src/pages/POS/POS.js:38 | a term trims to "" exactly when it is all whitespace |
| Text.TrimIdempotent | backend/models/Sale.js:54-57 | trimming twice is trimming once |
| Text.ToLower | inventory-frontend/src/pages/POS/POS.js:40-41 | same length; each ASCII capital lowered, other characters kept |
| Text.ContainsIff | inventory-frontend/src/pages/POS/POS.js:40-41 | `includes` holds exactly when the term occurs at some position |
| Text.ContainsEmpty | inventory-frontend/src/pages/POS/POS.js:40-41 | every string includes the empty term |
| PosCart.InCategory | inventory-frontend/src/pages/POS/POS.js:34-36 | the products of the chosen category, each as often as the list holds it; every product for "all" |
| PosCart.MatchingTerm | inventory-frontend/src/pages/POS/POS.js:38-43 | the products whose name or SKU contains the term, ignoring ASCII case, each as often as the list holds it; every product for a blank term |
| PosCart.VisibleProducts | inventory-frontend/src/pages/POS/POS.js:31-46 | exactly the products of the chosen category ("all" for any) that match a non-blank search term by name or SKU, each as often as the list holds it |
| PosCart.VisibleProductsAppend | inventory-frontend/src/pages/POS/POS.js:31-46 | filtering keeps list order: the products shown from two lists joined are those shown from each, in order |
| PosCart.VisibleProductsSingleton | inventory-frontend/src/pages/POS/POS.js:31-46 | a one-product list shows that product exactly when its category and the search term let it through |
| PosCart.Find | inventory-frontend/src/pages/POS/POS.js:74 | the first entry with the product id, absent exactly when there is none |
| PosCart.WithQty | inventory-frontend/src/pages/POS/POS.js:104-108 | only entries with the id get the new quantity; others and order are kept |
| PosCart.Remove | inventory-frontend/src/pages/POS/POS.js:111-113 | drops exactly the entries with the id and keeps every other entry |
| PosCart.RemoveAppend | inventory-frontend/src/pages/POS/POS.js:111-113 | removing from a concatenation is removing from each part, so the kept entries stay in order |
| PosCart.RemoveSingleton | inventory-frontend/src/pages/POS/POS.js:112 | a single entry is dropped exactly when it is for the product |
| PosCart.AddToCart | inventory-frontend/src/pages/POS/POS.js:67-89 | out of stock refused; new product appended with quantity 1; existing one allowed only below its stock, and then every entry for it grows by one while the others stay; refusals keep the cart |
| PosCart.Incremented | inventory-frontend/src/pages/POS/POS.js:76-80 | entries for the product gain one unit each, everything else and the length are kept |
| PosCart.IncrementOnDistinctCart | inventory-frontend/src/pages/POS/POS.js:74-80 | in a cart without repeats, adding one more is setting that entry to its found quantity plus one |
| PosCart.FoundIsOnlyEntry | inventory-frontend/src/pages/POS/POS.js:70-80 | in a cart without repeats, the entry `find` returns is the only entry for the product |
| PosCart.IncrementOneEntry | inventory-frontend/src/pages/POS/POS.js:74-80 | when a single entry value stands for the product, the per-entry `cartQty + 1` map sets every entry for it to that entry's quantity plus one |
| PosCart.UpdateQty | inventory-frontend/src/pages/POS/POS.js:91-109 | quantity ≤ 0 removes; above the entry's stock refused with that stock in the message; otherwise only that entry's quantity changes; an id not in the cart throws a TypeError, leaving the cart and showing no message; every non-update keeps the cart |
| PosCart.AddKeepsCartInv | inventory-frontend/src/pages/POS/POS.js:67-89 | adding keeps ids distinct and every quantity between 1 and stock, given a matching non-negative snapshot |
| PosCart.RemoveKeepsDistinct | inventory-frontend/src/pages/POS/POS.js:111-113 | removing keeps ids distinct and shortens the cart by one exactly when the id was there |
| PosCart.UpdateKeepsCartInv | inventory-frontend/src/pages/POS/POS.js:91-109 | updating keeps ids distinct and every quantity between 1 and stock |
| PosCart.RemoveKeepsCartInv | inventory-frontend/src/pages/POS/POS.js:111-113 | removing keeps ids distinct and every quantity between 1 and stock |
| PosCart.CartTotals | inventory-frontend/src/pages/POS/POS.js:115-120 | subtotal is Σ price × cart quantity, with the backend's tax and total rule |
| PosCart.CheckoutPayload | inventory-frontend/src/pages/POS/POS.js:122-136 | an empty cart is refused before any request; otherwise one line per entry with its quantity, paid in cash |
| PosCart.PageCartsAreWellFormed | inventory-frontend/src/pages/POS/POS.js:131-136 | the page's carts have distinct products and positive quantities, so the backend's checkout and the corrected one coincide on them |
| PosCart.PageTotalsMatchReceipt | inventory-frontend/src/pages/POS/POS.js:115-120 | when the cart's prices are current and its quantities in stock, the receipt's subtotal, tax and total equal the page's |
| ProductDetail.GetStockStatus | inventory-frontend/src/pages/Products/ProductDetail.js:45-49 | out of stock exactly at 0; low exactly when non-zero and below 10 (negatives included); in stock exactly from 10 |
| ProductDetail.TotalValue | inventory-frontend/src/pages/Products/ProductDetail.js:142 | price × quantity, a missing one counting as zero |
| CategoryDetail.TotalStock | inventory-frontend/src/pages/Categories/CategoryDetail.js:62-66 | zero for no products, and zero when every quantity is missing |
| CategoryDetail.TotalValue | inventory-frontend/src/pages/Categories/CategoryDetail.js:56-60 | zero for no products |
| CategoryDetail.TotalStockOfOne | inventory-frontend/src/pages/Categories/CategoryDetail.js:64 | one product adds its quantity, or nothing when it has none |
| CategoryDetail.TotalValueOfOne | inventory-frontend/src/pages/Categories/CategoryDetail.js:58 | one product adds price × quantity, a missing field counting as zero |
| CategoryDetail.StockIsSumOfListedQuantities | inventory-frontend/src/pages/Categories/CategoryDetail.js:62-66 | the category's stock is the sum of the quantities of exactly the products that have one |
| CategoryDetail.TotalsAdditive | inventory-frontend/src/pages/Categories/CategoryDetail.js:56-66 | both totals are additive over concatenation |
| CategoryDetail.CategoryValueIsSumOfProductPages | inventory-frontend/src/pages/Categories/CategoryDetail.js:56-60 | the category's value is the sum of the values each product's page shows |
| CategoryDetail.HandleDelete | inventory-frontend/src/pages/Categories/CategoryDetail.js:39-53 | refused, naming the product count, exactly when the category has products; deleted exactly when empty and confirmed |
| AuthContext.MessageOr | inventory-frontend/src/context/AuthContext.js:56 | a missing or empty message gives the fallback, any other is kept |
| AuthContext.Authenticate | inventory-frontend/src/context/AuthContext.js:44-77 | success exactly on an accepted reply, which signs the user in; otherwise the state is kept and the message relayed |
| AuthContext.Login | inventory-frontend/src/context/AuthContext.js:44-59 | accepted signs in the returned user and keeps the rest of the state (`loading` included); a refusal keeps the state and passes on the server's `message`; a failed request passes on the error response's message, or "Login failed" when it has none |
| AuthContext.Register | inventory-frontend/src/context/AuthContext.js:62-77 | accepted signs in the returned user and keeps the rest of the state (`loading` included); a refusal keeps the state and passes on the server's `message`; a failed request passes on the error response's message, or "Registration failed" when it has none |
| AuthContext.Logout | inventory-frontend/src/context/AuthContext.js:80-84 | no user and not authenticated afterwards |
| AuthContext.CheckAuth | inventory-frontend/src/context/AuthContext.js:20-41 | loading ends; authenticated exactly with a stored session confirmed by the server, as that user |
| AuthContext.TransitionsKeepCoherence | inventory-frontend/src/context/AuthContext.js:20-84 | every transition keeps "authenticated exactly when a user is set" |
| AuthContext.RedirectPath | inventory-frontend/src/context/AuthContext.js:87-91 | no user goes to /login, admin to /dashboard, every other role to /pos |
| AuthContext.HasRole | inventory-frontend/src/context/AuthContext.js:94-100 | false without a user; a list tests membership, a single role equality |
| AuthContext.OneRoleIsSingletonList | inventory-frontend/src/context/AuthContext.js:96-99 | asking for one role equals asking for the list holding it |
| AuthContext.LoginThenRedirect | inventory-frontend/src/context/AuthContext.js:44-91 | after an accepted login the user has their role and is sent to /dashboard or /pos by it |
| AuthContext.LogoutClearsRoles | inventory-frontend/src/context/AuthContext.js:80-100 | after logout no role holds and the redirect is /login |
| RegisterPage.FormError | inventory-frontend/src/pages/Register.js:37-46 | mismatch reported first, then a password under 6 characters; no error exactly otherwise |
| RegisterPage.HandleSubmit | inventory-frontend/src/pages/Register.js:33-60 | a form error is shown without a request; otherwise the form minus confirmPassword is sent; success signs in the user the service returned, keeps the rest of the state and goes to /dashboard; failure keeps the state and shows the server's message, or "Registration failed" when it has none |
| RegisterPage.FailureMessageNeverEmpty | inventory-frontend/src/pages/Register.js:56 | a refused registration always shows a non-empty message |
| RegisterPage.MismatchReportedFirst | inventory-frontend/src/pages/Register.js:38-46 | a short mismatching password reports the mismatch and sends nothing |

## Left out

- HTTP, Express routing, the `protect`/`authorize` middleware and Mongoose (`find`, `populate`, `save`, `countDocuments`) are not modelled. The collections are a map and two sequences inside one `Store` value, and handlers return the error kind that fixes the status code.
- Concurrency is not modelled: checkout is one sequential transition. Storage failures in the middle of the write loop are left out too. For the requests the model admits, the only failure after writes begin is the sale schema refusing the payment method; the line without a quantity below is another, outside the model.
- The movement schema is not part of this model. Every movement the checkout writes is assumed to be accepted.
- Floating point and formatting are not modelled. Money is exact, and `toFixed(2)`, `toISOString` and the date string are left to the caller.
- `parseInt` is not modelled: query numbers arrive as `Option<int>`. In the report handlers (`parseInt(x) || default`), a value that does not parse gets the default, like an absent one.
- PosQueries.SalesHistory: `None` means the query left `limit` or `skip` out. A value that does not parse (`?limit=abc`) is not modelled: the source passes `NaN` to `.limit`/`.skip` without a default and echoes `NaN` back, and there is no integer to stand for that.
- An unparseable `date` query (an Invalid Date, which matches no sale) is not modelled; the date arrives as an optional valid local date.
- Malformed ids (a CastError, hence a 500) are not modelled; ids are plain strings, and an unknown id is simply not in the catalog.
- The wall clock, the time zone and DST are not modelled. Times are local milliseconds with a fixed day length, and `now` is a parameter.
- ReportWindows.MonthWindowContains: requires a year outside 0..99, because `new Date(y, m, 1)` reads those years as 1900..1999, so the window of such a date lies elsewhere.
- ReportWindows.PeriodWindowContains: requires a year outside 0..99, for the same reason, through the monthly period.
- Calendar.MonthStartBrackets: requires a year outside 0..99, for the same reason.
- PosQueries.SortNewestFirst: movements with equal `createdAt` are kept in one fixed order, while the database leaves their order open. The contract states only newest-first order and permutation.
- Text.ToLower: folds only ASCII capitals, where JavaScript folds all of Unicode.
- RegisterPage.FormError: counts a password's length in characters, not in UTF-16 code units.
- Receipt printing, rendering, loading flags and the three-second clearing of error messages are not modelled. Neither is the product list reloading after a checkout.
- The receipt's fallback to the current time when a sale has no date is not modelled, because a stored sale always has a date.
- Browser storage behind the auth service is not modelled. `AuthContext.CheckAuth` takes whether a stored session exists, and the server's reply, as parameters.
- The catalog order of the admin reports is not modelled: it is the order of the given sequence.
- Quantities are integers throughout: cart lines, product stock and sale items. The source takes whatever number the JSON body carries, so a line quantity of 0.5 passes the stock check (posController.js:45), is charged at half the price (:53) and leaves a stock of 4.5 (:77). Fractional quantities are not modelled, because every page that produces a quantity makes it whole: the cart's quantity box goes through `parseInt` (POS.js:365), and so do the product and stock-movement forms (ProductForm.js:78, TransactionForm.js:62). A fraction reaches the backend only from a hand-made request.
- A cart line without a `quantity` is not modelled: `CartLine` always carries an integer. In the source such a line passes the stock check, because `product.quantity < undefined` is false (posController.js:45). Its total is NaN (:53) and the stock it writes is NaN (:77). The product save at :78 then fails, because Mongoose does not cast NaN to a Number, and the handler answers 500 (:133-139). By then the stock saves and movements of any earlier lines are written. The page always sends `quantity: item.cartQty` (POS.js:131-134), so only a hand-made request can omit it.
- PosCart.UpdateQty: an id not in the cart is modelled as the outcome `ThrewTypeError`, with the cart unchanged and no message. What the browser does with the uncaught exception (the console report, React leaving the handler) is not modelled. The page never calls the handler with such an id: its −, + and quantity-box controls pass the id of the entry they belong to (POS.js:359-368).

## Findings

The as-written checkout (`PosCheckout.Checkout`) is what the report lemmas are about. `SafeCheckout.CheckoutCorrected` closes the three gaps below. `PosCart.PageCartsAreWellFormed` shows that every cart the POS page can build is one on which the two checkouts coincide.

| source | as written | input that shows it | evidently intended | confidence | as-written member | corrected member |
|---|---|---|---|---|---|---|
| backend/controllers/posController.js:33-78 | every line is checked against the stock read before any write, and each line saves its own copy, so the last line's save wins | stock 1; cart with two lines of the same product, quantity 1 each: both pass, two units are sold and the stock becomes 0 | the cart's total demand for a product is checked against its stock and taken off it | high, not executed | CheckoutScenarios.DuplicateLinesOversell | SafeCheckout.CorrectedStockEffect |
| backend/controllers/posController.js:45 | only `quantity < line quantity` is rejected, so a zero or negative line quantity passes | stock 0; one line of quantity −3: accepted, stock becomes 3, subtotal −300 | every line quantity is positive | high, not executed | CheckoutScenarios.NegativeQuantityRestocks | SafeCheckout.StagedPriced |
| backend/controllers/posController.js:93 | the payment method is only checked for presence; the sale schema's enum rejects it after stock and movements were written, and the response is a 500 | method "bitcoin" for a valid cart: stock decremented, one movement written, no sale, 500 | an unknown method is refused with a 400 before any write | high, not executed | CheckoutScenarios.UnknownMethodWritesThenFails | SafeCheckout.CheckoutCorrected |

=== FILE: auth.dfy ===
/**
 * The client's authentication state: who is signed in, the sign-in, sign-up and
 * sign-out transitions, and the role rules the routes consult.
 */
module AuthContext {
  import opened Wrappers

  datatype User = User(id: string, username: string, role: string)

  datatype AuthState = AuthState(user: Option<User>, isAuthenticated: bool, loading: bool)

  /** Before the stored session is checked: nobody signed in, still loading. */
  const Initial: AuthState := AuthState(None, false, true)

  /** The state is coherent when it is authenticated exactly while a user is set. */
  predicate Coherent(st: AuthState) {
    st.isAuthenticated <==> st.user.Some?
  }

  /**
   * What the authentication service answered: a success carrying the user, a
   * refusal carrying the server's message, or a failed request carrying the
   * message of the error response, if any.
   */
  datatype AuthReply =
    | Accepted(user: User)
    | Declined(message: Option<string>)
    | Errored(responseMessage: Option<string>)

  datatype AuthResult = AuthResult(success: bool, message: Option<string>)

  /** `message || fallback`: a missing or empty message gives the fallback. */
  function MessageOr(m: Option<string>, fallback: string): (r: string)
    ensures m.Some? && m.value != "" ==> r == m.value
    ensures m.None? || m.value == "" ==> r == fallback
  {
    if m.Some? && m.value != "" then m.value else fallback
  }

  /** The shared shape of login and register; `fallback` is their own failure message. */
  function Authenticate(st: AuthState, reply: AuthReply, fallback: string): (r: (AuthState, AuthResult))
    ensures r.1.success <==> reply.Accepted?
    ensures reply.Accepted? ==> r.0 == st.(user := Some(reply.user), isAuthenticated := true)
    ensures !reply.Accepted? ==> r.0 == st
    ensures reply.Declined? ==> r.1.message == reply.message
    ensures reply.Errored? ==> r.1.message == Some(MessageOr(reply.responseMessage, fallback))
  {
    match reply
    case Accepted(u) => (st.(user := Some(u), isAuthenticated := true), AuthResult(true, None))
    case Declined(m) => (st, AuthResult(false, m))
    case Errored(m) => (st, AuthResult(false, Some(MessageOr(m, fallback))))
  }

  function Login(st: AuthState, reply: AuthReply): (r: (AuthState, AuthResult))
    ensures reply.Errored? ==> r.1.message == Some(MessageOr(reply.responseMessage, "Login failed"))
    ensures reply.Declined? ==> r.1.message == reply.message
    ensures r.1.success <==> reply.Accepted?
    ensures reply.Accepted? ==> r.0 == st.(user := Some(reply.user), isAuthenticated := true)
    ensures !r.1.success ==> r.0 == st
  {
    Authenticate(st, reply, "Login failed")
  }

  function Register(st: AuthState, reply: AuthReply): (r: (AuthState, AuthResult))
    ensures reply.Errored? ==> r.1.message == Some(MessageOr(reply.responseMessage, "Registration failed"))
    ensures reply.Declined? ==> r.1.message == reply.message
    ensures r.1.success <==> reply.Accepted?
    ensures reply.Accepted? ==> r.0 == st.(user := Some(reply.user), isAuthenticated := true)
    ensures !r.1.success ==> r.0 == st
  {
    Authenticate(st, reply, "Registration failed")
  }

  function Logout(st: AuthState): (r: AuthState)
    ensures r.user.None? && !r.isAuthenticated
    ensures r.loading == st.loading
  {
    st.(user := None, isAuthenticated := false)
  }

  /**
   * The check on mount: with a stored session whose token the service still
   * accepts, the returned user is signed in; otherwise nobody is. Loading ends
   * either way.
   */
  function CheckAuth(hasStoredSession: bool, reply: AuthReply): (r: AuthState)
    ensures !r.loading
    ensures r.isAuthenticated <==> hasStoredSession && reply.Accepted?
    ensures r.isAuthenticated ==> r.user == Some(reply.user)
  {
    if hasStoredSession && reply.Accepted? then AuthState(Some(reply.user), true, false)
    else Initial.(loading := false)
  }

  /** Every transition keeps the state coherent. */
  lemma TransitionsKeepCoherence(st: AuthState, reply: AuthReply, hasStoredSession: bool)
    requires Coherent(st)
    ensures Coherent(Login(st, reply).0)
    ensures Coherent(Register(st, reply).0)
    ensures Coherent(Logout(st))
    ensures Coherent(CheckAuth(hasStoredSession, reply))
  {
  }

  /** Where a signed-in user lands: administrators on the dashboard, everyone else at the till. */
  function RedirectPath(st: AuthState): (p: string)
    ensures st.user.None? ==> p == "/login"
    ensures st.user.Some? && st.user.value.role == "admin" ==> p == "/dashboard"
    ensures st.user.Some? && st.user.value.role != "admin" ==> p == "/pos"
  {
    match st.user
    case None => "/login"
    case Some(u) => if u.role == "admin" then "/dashboard" else "/pos"
  }

  /** A role test takes one role or a list of acceptable roles. */
  datatype RoleQuery = One(role: string) | AnyOf(roles: seq<string>)

  function HasRole(st: AuthState, q: RoleQuery): (b: bool)
    ensures st.user.None? ==> !b
    ensures st.user.Some? && q.One? ==> (b <==> st.user.value.role == q.role)
    ensures st.user.Some? && q.AnyOf? ==> (b <==> st.user.value.role in q.roles)
  {
    match st.user
    case None => false
    case Some(u) =>
      match q
      case One(r) => u.role == r
      case AnyOf(rs) => u.role in rs
  }

  /** A single role and the one-element list of it answer alike. */
  lemma OneRoleIsSingletonList(st: AuthState, role: string)
    ensures HasRole(st, One(role)) == HasRole(st, AnyOf([role]))
  {
  }

  /** After a successful login the user is sent where their role belongs. */
  lemma LoginThenRedirect(st: AuthState, reply: AuthReply)
    requires reply.Accepted?
    ensures RedirectPath(Login(st, reply).0) == (if reply.user.role == "admin" then "/dashboard" else "/pos")
    ensures HasRole(Login(st, reply).0, One(reply.user.role))
  {
  }

  /** After logout nobody has any role and every route redirects to the login page. */
  lemma LogoutClearsRoles(st: AuthState, q: RoleQuery)
    ensures !HasRole(Logout(st), q)
    ensures RedirectPath(Logout(st)) == "/login"
  {
  }
}

=== FILE: calendar.dfy ===
/**
 * Local calendar arithmetic for the report windows.
 *
 * Time is a count of milliseconds since 1970-01-01T00:00 in server-local time,
 * with every day exactly `MsPerDay` long (no time zones, no daylight saving).
 * Day numbers count days since 1970-01-01, which was a Thursday.
 */
module Calendar {

  /** Local milliseconds since 1970-01-01T00:00. */
  type Time = int

  const MsPerDay: int := 86_400_000

  /** The day number a time falls on (floor division). */
  function DayOf(t: Time): int {
    t / MsPerDay
  }

  /** Local midnight at the start of the day containing `t` (`setHours(0,0,0,0)`). */
  function Midnight(t: Time): (m: Time)
    ensures m <= t < m + MsPerDay
    ensures m % MsPerDay == 0
  {
    DayOf(t) * MsPerDay
  }

  /** Day of the week of a day number, 0 = Sunday .. 6 = Saturday (`getDay()`). */
  function Weekday(day: int): (w: int)
    ensures 0 <= w < 7
  {
    (day + 4) % 7
  }

  predicate IsLeapYear(y: int) {
    y % 4 == 0 && (y % 100 != 0 || y % 400 == 0)
  }

  function DaysInYear(y: int): int {
    if IsLeapYear(y) then 366 else 365
  }

  function DaysInMonth(y: int, m: int): (n: int)
    requires 1 <= m <= 12
    ensures 28 <= n <= 31
  {
    if m == 2 then (if IsLeapYear(y) then 29 else 28)
    else if m == 4 || m == 6 || m == 9 || m == 11 then 30
    else 31
  }

  /** Leap years among 1..y for y >= 0, extended to all integers by floor division. */
  function LeapsThrough(y: int): int {
    y / 4 - y / 100 + y / 400
  }

  /** Day number of January 1st of year `y`. */
  function DaysBeforeYear(y: int): int {
    365 * (y - 1970) + LeapsThrough(y - 1) - LeapsThrough(1969)
  }

  /** Days of year `y` before the first of month `m`. */
  function DaysBeforeMonth(y: int, m: int): int
    requires 1 <= m <= 12
  {
    var common :=
      if m == 1 then 0 else if m == 2 then 31 else if m == 3 then 59
      else if m == 4 then 90 else if m == 5 then 120 else if m == 6 then 151
      else if m == 7 then 181 else if m == 8 then 212 else if m == 9 then 243
      else if m == 10 then 273 else if m == 11 then 304 else 334;
    if m > 2 && IsLeapYear(y) then common + 1 else common
  }

  /** Day number of the civil date y-m-d. */
  function DayNumber(y: int, m: int, d: int): int
    requires 1 <= m <= 12
  {
    DaysBeforeYear(y) + DaysBeforeMonth(y, m) + d - 1
  }

  /** Floor division by a constant steps up by one exactly at its multiples. */
  lemma DivSteps(y: int)
    ensures y / 4 - (y - 1) / 4 == (if y % 4 == 0 then 1 else 0)
    ensures y / 100 - (y - 1) / 100 == (if y % 100 == 0 then 1 else 0)
    ensures y / 400 - (y - 1) / 400 == (if y % 400 == 0 then 1 else 0)
  {
  }

  lemma MultiplesNest(y: int)
    ensures y % 400 == 0 ==> y % 100 == 0
    ensures y % 100 == 0 ==> y % 4 == 0
  {
    if y % 400 == 0 {
      var q := y / 400;
      assert y == 100 * (4 * q);
    }
    if y % 100 == 0 {
      var q := y / 100;
      assert y == 4 * (25 * q);
    }
  }

  lemma LeapsStep(y: int)
    ensures LeapsThrough(y) - LeapsThrough(y - 1) == (if IsLeapYear(y) then 1 else 0)
  {
    DivSteps(y);
    MultiplesNest(y);
  }

  /** A year is as long as its leap status says. */
  lemma DaysBeforeNextYear(y: int)
    ensures DaysBeforeYear(y + 1) == DaysBeforeYear(y) + DaysInYear(y)
  {
    LeapsStep(y);
  }

  /** Consecutive months follow each other, and December runs into the next January. */
  lemma NextMonthStart(y: int, m: int)
    requires 1 <= m <= 12
    ensures m < 12 ==> DayNumber(y, m + 1, 1) == DayNumber(y, m, 1) + DaysInMonth(y, m)
    ensures m == 12 ==> DayNumber(y + 1, 1, 1) == DayNumber(y, m, 1) + DaysInMonth(y, m)
  {
    DaysBeforeNextYear(y);
  }

  /** A local calendar date and time of day, as a JavaScript `Date` presents it. */
  datatype LocalDateTime = LocalDateTime(year: int, month: int, day: int, msOfDay: int)

  predicate ValidDateTime(dt: LocalDateTime) {
    && 1 <= dt.month <= 12
    && 1 <= dt.day <= DaysInMonth(dt.year, dt.month)
    && 0 <= dt.msOfDay < MsPerDay
  }

  /** The instant a valid local date and time denotes. */
  function TimeOf(dt: LocalDateTime): (t: Time)
    requires ValidDateTime(dt)
    ensures DayOf(t) == DayNumber(dt.year, dt.month, dt.day)
    ensures Midnight(t) == t - dt.msOfDay
  {
    DayNumber(dt.year, dt.month, dt.day) * MsPerDay + dt.msOfDay
  }

  /** The year `new Date(y, monthIndex, day)` uses: 0..99 mean 1900..1999. */
  function JsFullYear(y: int): (r: int)
    ensures 0 <= y <= 99 ==> r == 1900 + y
    ensures (y < 0 || y > 99) ==> r == y
  {
    if 0 <= y <= 99 then 1900 + y else y
  }

  /**
   * `new Date(y, monthIndex, 1)`: the first of a month given by a zero-based month
   * index that may lie outside 0..11 and then carries into the year.
   */
  function MonthStart(y: int, monthIndex: int): Time {
    DayNumber(JsFullYear(y) + monthIndex / 12, monthIndex % 12 + 1, 1) * MsPerDay
  }

  /** The month that follows a month starts exactly its length later. */
  lemma {:induction false} MonthStartNext(y: int, monthIndex: int)
    ensures MonthStart(y, monthIndex + 1) - MonthStart(y, monthIndex)
         == DaysInMonth(JsFullYear(y) + monthIndex / 12, monthIndex % 12 + 1) * MsPerDay
  {
    var yy, mm := JsFullYear(y) + monthIndex / 12, monthIndex % 12 + 1;
    NextMonthStart(yy, mm);
    if mm < 12 {
      assert (monthIndex + 1) / 12 == monthIndex / 12 && (monthIndex + 1) % 12 + 1 == mm + 1;
    } else {
      assert (monthIndex + 1) / 12 == monthIndex / 12 + 1 && (monthIndex + 1) % 12 + 1 == 1;
    }
  }

  /** For years outside the two-digit range, the month of a date starts at its first and ends before it. */
  lemma MonthStartBrackets(dt: LocalDateTime)
    requires ValidDateTime(dt)
    requires dt.year < 0 || dt.year > 99
    ensures MonthStart(dt.year, dt.month - 1) <= TimeOf(dt) < MonthStart(dt.year, dt.month)
  {
    assert (dt.month - 1) / 12 == 0 && (dt.month - 1) % 12 + 1 == dt.month;
    MonthStartNext(dt.year, dt.month - 1);
  }

  /** 1970-01-01 is day 0 and was a Thursday. */
  lemma EpochIsThursday()
    ensures DayNumber(1970, 1, 1) == 0
    ensures Weekday(DayNumber(1970, 1, 1)) == 4
  {
  }
}

=== FILE: category_detail.dfy ===
/** The category page's stock and value totals and its delete guard. */
module CategoryDetail {
  import opened Wrappers
  import opened Money
  import opened Seqs
  import ProductDetail

  /** A product as the category page lists it; price and quantity may be missing. */
  datatype ListedProduct = ListedProduct(name: string, price: Option<real>, quantity: Option<int>)

  function StockOf(p: ListedProduct): int {
    p.quantity.GetOr(0)
  }

  function ValueOf(p: ListedProduct): real {
    p.price.GetOr(0.0) * p.quantity.GetOr(0) as real
  }

  predicate HasQuantity(p: ListedProduct) {
    p.quantity.Some?
  }

  /** Sum of the quantities, a missing one counting as zero. */
  function TotalStock(products: seq<ListedProduct>): (r: int)
    ensures |products| == 0 ==> r == 0
    ensures (forall i :: 0 <= i < |products| ==> products[i].quantity.None?) ==> r == 0
  {
    StockIsSumOfListedQuantities(products);
    assert (forall i :: 0 <= i < |products| ==> products[i].quantity.None?) ==> Filter(products, HasQuantity) == [] by {
      if forall i :: 0 <= i < |products| ==> products[i].quantity.None? {
        FilterNone(products, HasQuantity);
      }
    }
    SumInt(products, StockOf)
  }

  /** Sum of price times quantity, a missing field counting as zero. */
  function TotalValue(products: seq<ListedProduct>): (r: real)
    ensures |products| == 0 ==> r == 0.0
  {
    SumReal(products, ValueOf)
  }

  /** A single product contributes its quantity, or nothing when it has none. */
  lemma TotalStockOfOne(p: ListedProduct)
    ensures TotalStock([p]) == if p.quantity.Some? then p.quantity.value else 0
  {
    assert [p][1..] == [];
    assert SumInt([p], StockOf) == StockOf(p) + SumInt([p][1..], StockOf);
  }

  /** A single product contributes price times quantity, a missing field counting as zero. */
  lemma TotalValueOfOne(p: ListedProduct)
    ensures TotalValue([p]) == p.price.GetOr(0.0) * p.quantity.GetOr(0) as real
  {
    assert [p][1..] == [];
    assert SumReal([p], ValueOf) == ValueOf(p) + SumReal([p][1..], ValueOf);
  }

  /** Both totals of a list split into two parts are the sums of the parts' totals. */
  lemma TotalsAdditive(a: seq<ListedProduct>, b: seq<ListedProduct>)
    ensures TotalStock(a + b) == TotalStock(a) + TotalStock(b)
    ensures TotalValue(a + b) == TotalValue(a) + TotalValue(b)
  {
    SumIntAppend(a, b, StockOf);
    SumRealAppend(a, b, ValueOf);
  }

  /**
   * Reference reading of the category's stock: the quantities of exactly the
   * products that have one, summed.
   */
  lemma {:induction false} StockIsSumOfListedQuantities(products: seq<ListedProduct>)
    ensures SumInt(products, StockOf) == SumInt(Filter(products, HasQuantity), StockOf)
  {
    if |products| > 0 {
      StockIsSumOfListedQuantities(products[1..]);
      if HasQuantity(products[0]) {
        assert Filter(products, HasQuantity) == [products[0]] + Filter(products[1..], HasQuantity);
        assert ([products[0]] + Filter(products[1..], HasQuantity))[1..] == Filter(products[1..], HasQuantity);
      }
    }
  }

  function PageValueOf(p: ListedProduct): real {
    ProductDetail.TotalValue(p.price, p.quantity)
  }

  /** The category's value is the sum of the values each product's own page shows. */
  lemma CategoryValueIsSumOfProductPages(products: seq<ListedProduct>)
    ensures TotalValue(products) == SumReal(products, PageValueOf)
  {
    SumRealPointwise(products, ValueOf, products, PageValueOf);
  }

  /** What pressing delete does. */
  datatype DeleteOutcome =
    | Refused(productCount: nat)
    | Cancelled
    | Deleted

  /**
   * A category that still has products is never deleted and no confirmation is
   * asked; an empty one is deleted exactly when the user confirms.
   */
  function HandleDelete(products: seq<ListedProduct>, confirmed: bool): (r: DeleteOutcome)
    ensures |products| > 0 <==> r.Refused?
    ensures r.Refused? ==> r.productCount == |products|
    ensures r == Deleted <==> |products| == 0 && confirmed
  {
    if |products| > 0 then Refused(|products|)
    else if confirmed then Deleted
    else Cancelled
  }
}

=== FILE: checkout.dfy ===
/**
 * The point-of-sale checkout as the backend performs it: a read-only validation
 * pass over the whole cart, then one stock write and one `out` movement per cart
 * line, then one sale record, then the receipt.
 */
module PosCheckout {
  import opened Wrappers
  import opened Calendar
  import opened Money
  import opened Inventory
  import opened SaleModel

  /** The three collections a checkout reads and writes, and the next free record id. */
  datatype Store = Store(
    products: map<ProductId, Product>,
    movements: seq<Movement>,
    sales: seq<Sale>,
    nextId: RecordId)

  /** One requested cart line. */
  datatype CartLine = CartLine(productId: ProductId, quantity: int)

  /** The checkout request body; `items` and `paymentMethod` may be missing altogether. */
  datatype CheckoutRequest = CheckoutRequest(
    items: Option<seq<CartLine>>,
    paymentMethod: Option<string>,
    notes: Option<string>)

  /** The authenticated user performing the checkout. */
  datatype Actor = Actor(id: UserId, firstName: string, lastName: string)

  datatype CheckoutError =
    | EmptyCart
    | PaymentMethodRequired
    | ProductNotFound(productId: ProductId)
    | NotEnoughStock(productName: string, available: int)
    | SaleNotCreated(errors: seq<SchemaError>)
    | InvalidPaymentMethod(value: string)
    | InvalidQuantity(productId: ProductId, quantity: int)

  /** HTTP status of each failure. */
  function StatusCode(e: CheckoutError): int {
    match e
    case EmptyCart => 400
    case PaymentMethodRequired => 400
    case ProductNotFound(_) => 404
    case NotEnoughStock(_, _) => 400
    case SaleNotCreated(_) => 500
    case InvalidPaymentMethod(_) => 400
    case InvalidQuantity(_, _) => 400
  }

  /** A validated cart line: the sale item it becomes and the product document it was read from. */
  datatype ProcessedItem = ProcessedItem(item: SaleItem, product: Product)

  /** A receipt line; the money fields are exact here, formatting is left to the caller. */
  datatype ReceiptLine = ReceiptLine(productName: string, quantity: int, unitPrice: real, itemTotal: real)

  datatype Receipt = Receipt(
    saleId: RecordId,
    transactionIds: seq<RecordId>,
    items: seq<ReceiptLine>,
    subtotal: real,
    tax: real,
    total: real,
    paymentMethod: string,
    cashier: string,
    date: Time)

  /** The store after the request, and the response sent back. */
  datatype CheckoutOutcome = CheckoutOutcome(store: Store, response: Result<Receipt, CheckoutError>)

  // ---------------------------------------------------------------- validation

  /** Validation of one cart line against the catalog as it stood before the checkout. */
  function CheckLine(products: map<ProductId, Product>, line: CartLine): (r: Result<ProcessedItem, CheckoutError>)
    ensures line.productId !in products ==> r == Failure(ProductNotFound(line.productId))
    ensures line.productId in products && products[line.productId].quantity < line.quantity
            ==> r == Failure(NotEnoughStock(products[line.productId].name, products[line.productId].quantity))
    ensures r.Success? <==> line.productId in products && line.quantity <= products[line.productId].quantity
    ensures r.Success? ==>
      && r.value.product == products[line.productId]
      && r.value.item == SaleItem(line.productId, Some(products[line.productId].name), line.quantity,
                                  products[line.productId].price,
                                  LineTotal(products[line.productId].price, line.quantity))
  {
    if line.productId !in products then Failure(ProductNotFound(line.productId))
    else
      var p := products[line.productId];
      if p.quantity < line.quantity then Failure(NotEnoughStock(p.name, p.quantity))
      else Success(ProcessedItem(SaleItem(line.productId, Some(p.name), line.quantity, p.price,
                                          LineTotal(p.price, line.quantity)), p))
  }

  /** The line passes validation: its product exists and holds at least the requested quantity. */
  predicate LineValid(products: map<ProductId, Product>, line: CartLine) {
    line.productId in products && line.quantity <= products[line.productId].quantity
  }

  /**
   * The validation loop: every line is checked against the same, still unmodified
   * catalog, and the first failing line decides the error.
   */
  function ValidateLines(products: map<ProductId, Product>, lines: seq<CartLine>)
    : (r: Result<seq<ProcessedItem>, CheckoutError>)
    ensures r.Success? <==> forall i :: 0 <= i < |lines| ==> LineValid(products, lines[i])
    ensures r.Success? ==> |r.value| == |lines|
    ensures r.Success? ==> forall i :: 0 <= i < |lines| ==> Success(r.value[i]) == CheckLine(products, lines[i])
    ensures r.Failure? ==>
      exists i :: 0 <= i < |lines| && !LineValid(products, lines[i])
        && (forall j :: 0 <= j < i ==> LineValid(products, lines[j]))
        && CheckLine(products, lines[i]) == Failure(r.error)
  {
    if |lines| == 0 then Success([])
    else
      var head := CheckLine(products, lines[0]);
      if head.Failure? then Failure(head.error)
      else
        var rest := ValidateLines(products, lines[1..]);
        if rest.Failure? then
          assert forall j :: 1 <= j < |lines| ==> lines[1..][j - 1] == lines[j];
          Failure(rest.error)
        else Success([head.value] + rest.value)
  }

  // ---------------------------------------------------------------- mutation

  function LineAmountOf(p: ProcessedItem): real {
    p.item.itemTotal
  }

  /** The product document a line saves: its validation-time copy less the line quantity. */
  function Written(p: ProcessedItem): Product {
    p.product.(quantity := p.product.quantity - p.item.quantity)
  }

  /** The note every movement and the sale carry: the caller's notes, or one naming the payment method. */
  function NoteFor(notes: Option<string>, paymentMethod: string): (n: string)
    ensures notes.Some? && notes.value != "" ==> n == notes.value
    ensures (notes.None? || notes.value == "") ==> n == "POS Sale - Payment: " + paymentMethod
  {
    if notes.Some? && notes.value != "" then notes.value else "POS Sale - Payment: " + paymentMethod
  }

  /**
   * The per-line product writes, in cart order. Each line saves its own copy of the
   * product read during validation, so a later line for the same product overwrites
   * an earlier one.
   */
  function ApplyStock(products: map<ProductId, Product>, items: seq<ProcessedItem>): map<ProductId, Product>
    decreases |items|
  {
    if |items| == 0 then products
    else
      ApplyStock(products[items[0].item.productId := Written(items[0])], items[1..])
  }

  /** The `out` movements of the lines, numbered from `firstId`. */
  function SaleMovements(items: seq<ProcessedItem>, note: string, user: UserId, now: Time, firstId: RecordId)
    : (ms: seq<Movement>)
    ensures |ms| == |items|
    ensures forall i :: 0 <= i < |items| ==>
      ms[i] == Movement(firstId + i, items[i].item.productId, Out, items[i].item.quantity, note, user, now)
  {
    seq(|items|, i requires 0 <= i < |items| =>
      Movement(firstId + i, items[i].item.productId, Out, items[i].item.quantity, note, user, now))
  }

  function IdsOf(ms: seq<Movement>): (ids: seq<RecordId>)
    ensures |ids| == |ms| && forall i :: 0 <= i < |ms| ==> ids[i] == ms[i].id
  {
    seq(|ms|, i requires 0 <= i < |ms| => ms[i].id)
  }

  function FieldsOf(p: ProcessedItem): SaleItemFields {
    SaleItemFields(Some(p.item.productId), p.item.productName, Some(p.item.quantity),
                   Some(p.item.unitPrice), Some(p.item.itemTotal))
  }

  function ReceiptLineOf(p: ProcessedItem): ReceiptLine {
    ReceiptLine(p.item.productName.GetOr(""), p.item.quantity, p.item.unitPrice, p.item.itemTotal)
  }

  /** The receipt's cashier label: first and last name separated by a space. */
  function DisplayName(a: Actor): string {
    a.firstName + " " + a.lastName
  }

  /** The sale fields the checkout hands to the store for validated lines. */
  function SaleDraft(items: seq<ProcessedItem>, paymentMethod: string, note: string, cashier: UserId,
                     ids: seq<RecordId>): SaleFields
  {
    var totals := TotalsOf(SumReal(items, LineAmountOf));
    SaleFields(
      seq(|items|, i requires 0 <= i < |items| => FieldsOf(items[i])),
      Some(totals.subtotal), Some(totals.tax), Some(totals.total),
      Some(paymentMethod), Some(cashier), ids, Some(note), None)
  }

  /** The per-line writes: stock of every line's product, then its `out` movement. */
  function WriteLines(s: Store, items: seq<ProcessedItem>, note: string, user: UserId, now: Time): Store {
    Store(ApplyStock(s.products, items), s.movements + SaleMovements(items, note, user, now, s.nextId),
          s.sales, s.nextId + |items|)
  }

  /**
   * The mutation phase for validated lines: write every line, then create the
   * sale, which may still be refused by the sale schema after the line writes.
   */
  function Commit(s: Store, items: seq<ProcessedItem>, paymentMethod: string, notes: Option<string>,
                  actor: Actor, now: Time): CheckoutOutcome
  {
    var note := NoteFor(notes, paymentMethod);
    var written := WriteLines(s, items, note, actor.id, now);
    var ids := IdsOf(SaleMovements(items, note, actor.id, now, s.nextId));
    var created := CreateSale(SaleDraft(items, paymentMethod, note, actor.id, ids), written.nextId, now);
    if created.Failure? then CheckoutOutcome(written, Failure(SaleNotCreated(created.error)))
    else
      var sale := created.value;
      CheckoutOutcome(
        written.(sales := written.sales + [sale], nextId := written.nextId + 1),
        Success(Receipt(sale.id, sale.transactionIds,
                        seq(|items|, i requires 0 <= i < |items| => ReceiptLineOf(items[i])),
                        sale.subtotal, sale.tax, sale.total, paymentMethod, DisplayName(actor), sale.date)))
  }

  /** The request carries no cart lines. */
  predicate CartEmpty(req: CheckoutRequest) {
    req.items.None? || |req.items.value| == 0
  }

  /** The request carries no usable payment method (absent or the empty string). */
  predicate MethodMissing(req: CheckoutRequest) {
    req.paymentMethod.None? || req.paymentMethod.value == ""
  }

  /** Every cart line passes validation. */
  predicate CartValid(products: map<ProductId, Product>, req: CheckoutRequest)
    requires !CartEmpty(req)
  {
    forall i :: 0 <= i < |req.items.value| ==> LineValid(products, req.items.value[i])
  }

  /** The checkout request handler. */
  function Checkout(s: Store, req: CheckoutRequest, actor: Actor, now: Time): (o: CheckoutOutcome)
    ensures CartEmpty(req) ==> o == CheckoutOutcome(s, Failure(EmptyCart))
    ensures !CartEmpty(req) && MethodMissing(req) ==> o == CheckoutOutcome(s, Failure(PaymentMethodRequired))
    ensures !CartEmpty(req) && !MethodMissing(req) && !CartValid(s.products, req)
            ==> o.store == s && o.response.Failure?
                && (o.response.error.ProductNotFound? || o.response.error.NotEnoughStock?)
    ensures o.response.Failure? && !o.response.error.SaleNotCreated? ==> o.store == s
    ensures o.response.Failure? ==> o.store.sales == s.sales
    ensures o.response.Success? ==>
      !CartEmpty(req) && !MethodMissing(req) && CartValid(s.products, req)
      && ParsePaymentMethod(req.paymentMethod.value).Some?
  {
    if CartEmpty(req) then CheckoutOutcome(s, Failure(EmptyCart))
    else if MethodMissing(req) then CheckoutOutcome(s, Failure(PaymentMethodRequired))
    else
      var v := ValidateLines(s.products, req.items.value);
      if v.Failure? then CheckoutOutcome(s, Failure(v.error))
      else Commit(s, v.value, req.paymentMethod.value, req.notes, actor, now)
  }
}

=== FILE: checkout_facts.dfy ===
/** What one checkout does to the store, stated against the request and the store before it. */
module CheckoutFacts {
  import opened Wrappers
  import opened Calendar
  import opened Money
  import opened Text
  import opened Inventory
  import opened SaleModel
  import opened PosCheckout

  /** No two cart lines name the same product. */
  predicate DistinctProducts(lines: seq<CartLine>) {
    forall i, j :: 0 <= i < j < |lines| ==> lines[i].productId != lines[j].productId
  }

  /** Some cart line names product `k`. */
  predicate InCart(lines: seq<CartLine>, k: ProductId) {
    exists i :: 0 <= i < |lines| && lines[i].productId == k
  }

  /** The request passes the whole validation phase. */
  predicate Validated(s: Store, req: CheckoutRequest) {
    !CartEmpty(req) && !MethodMissing(req) && CartValid(s.products, req)
  }

  predicate StockNonNegative(products: map<ProductId, Product>) {
    forall k :: k in products ==> products[k].quantity >= 0
  }

  // ---------------------------------------------------------------- the product writes

  /** A product no line names is left exactly as it was. */
  lemma {:induction false} ApplyStockOutside(products: map<ProductId, Product>, items: seq<ProcessedItem>, k: ProductId)
    requires forall i :: 0 <= i < |items| ==> items[i].item.productId != k
    ensures (k in ApplyStock(products, items)) == (k in products)
    ensures k in products ==> ApplyStock(products, items)[k] == products[k]
    decreases |items|
  {
    if |items| > 0 {
      ApplyStockOutside(products[items[0].item.productId := Written(items[0])], items[1..], k);
    }
  }

  /** Writing products that already exist adds no product. */
  lemma {:induction false} ApplyStockKeys(products: map<ProductId, Product>, items: seq<ProcessedItem>)
    requires forall i :: 0 <= i < |items| ==> items[i].item.productId in products
    ensures ApplyStock(products, items).Keys == products.Keys
    decreases |items|
  {
    if |items| > 0 {
      var next := products[items[0].item.productId := Written(items[0])];
      assert next.Keys == products.Keys;
      ApplyStockKeys(next, items[1..]);
    }
  }

  /** The last line naming a product decides what is stored for it. */
  lemma {:induction false} ApplyStockLastWriteWins(products: map<ProductId, Product>, items: seq<ProcessedItem>, i: nat)
    requires i < |items|
    requires forall j :: i < j < |items| ==> items[j].item.productId != items[i].item.productId
    ensures items[i].item.productId in ApplyStock(products, items)
    ensures ApplyStock(products, items)[items[i].item.productId] == Written(items[i])
    decreases |items|
  {
    var next := products[items[0].item.productId := Written(items[0])];
    if i == 0 {
      ApplyStockOutside(next, items[1..], items[0].item.productId);
    } else {
      ApplyStockLastWriteWins(next, items[1..], i - 1);
    }
  }

  /** Writes of non-negative stock keep every stored quantity non-negative. */
  lemma {:induction false} ApplyStockNonNegative(products: map<ProductId, Product>, items: seq<ProcessedItem>)
    requires StockNonNegative(products)
    requires forall i :: 0 <= i < |items| ==> Written(items[i]).quantity >= 0
    ensures StockNonNegative(ApplyStock(products, items))
    decreases |items|
  {
    if |items| > 0 {
      ApplyStockNonNegative(products[items[0].item.productId := Written(items[0])], items[1..]);
    }
  }

  // ---------------------------------------------------------------- the checkout

  /** Once validation passed, the checkout is the mutation phase over the validated lines. */
  lemma CheckoutCommits(s: Store, req: CheckoutRequest, actor: Actor, now: Time)
    requires Validated(s, req)
    ensures ValidateLines(s.products, req.items.value).Success?
    ensures Checkout(s, req, actor, now)
            == Commit(s, ValidateLines(s.products, req.items.value).value, req.paymentMethod.value, req.notes,
                      actor, now)
  {
  }

  /** The lines the validation phase produces when it passes. */
  lemma ValidatedLines(s: Store, req: CheckoutRequest)
    requires Validated(s, req)
    ensures var v := ValidateLines(s.products, req.items.value);
      && v.Success? && |v.value| == |req.items.value|
      && forall i :: 0 <= i < |v.value| ==>
           var line := req.items.value[i];
           && v.value[i].product == s.products[line.productId]
           && v.value[i].item == SaleItem(line.productId, Some(s.products[line.productId].name), line.quantity,
                                          s.products[line.productId].price,
                                          LineTotal(s.products[line.productId].price, line.quantity))
  {
    var v := ValidateLines(s.products, req.items.value);
    forall i | 0 <= i < |v.value|
      ensures v.value[i].product == s.products[req.items.value[i].productId]
    {
      assert Success(v.value[i]) == CheckLine(s.products, req.items.value[i]);
    }
  }

  /**
   * Writing the validated lines of a cart naming each product once: every cart
   * product holds its old stock less its line quantity, never negative, and every
   * other product is untouched.
   */
  lemma LineWritesStockEffect(products: map<ProductId, Product>, lines: seq<CartLine>, after: map<ProductId, Product>)
    requires ValidateLines(products, lines).Success?
    requires DistinctProducts(lines)
    requires after == ApplyStock(products, ValidateLines(products, lines).value)
    ensures after.Keys == products.Keys
    ensures forall i :: 0 <= i < |lines| ==>
      && after[lines[i].productId]
         == products[lines[i].productId].(quantity := products[lines[i].productId].quantity - lines[i].quantity)
      && after[lines[i].productId].quantity >= 0
    ensures forall k :: k in products && !InCart(lines, k) ==> after[k] == products[k]
  {
    var items := ValidateLines(products, lines).value;
    ApplyStockKeys(products, items);
    forall i | 0 <= i < |lines|
      ensures after[lines[i].productId]
              == products[lines[i].productId].(quantity := products[lines[i].productId].quantity - lines[i].quantity)
    {
      assert Success(items[i]) == CheckLine(products, lines[i]);
      ApplyStockLastWriteWins(products, items, i);
    }
    forall k | k in products && !InCart(lines, k)
      ensures after[k] == products[k]
    {
      ApplyStockOutside(products, items, k);
    }
  }

  /**
   * Once validation passed (whether or not the sale is then created), every cart
   * product holds its old stock less its line quantity, never negative, and every
   * other product is untouched.
   */
  lemma CheckoutStockEffect(s: Store, req: CheckoutRequest, actor: Actor, now: Time)
    requires Validated(s, req)
    requires DistinctProducts(req.items.value)
    ensures var o := Checkout(s, req, actor, now);
            var lines := req.items.value;
      && o.store.products.Keys == s.products.Keys
      && (forall i :: 0 <= i < |lines| ==>
            && o.store.products[lines[i].productId]
               == s.products[lines[i].productId].(quantity := s.products[lines[i].productId].quantity - lines[i].quantity)
            && o.store.products[lines[i].productId].quantity >= 0)
      && (forall k :: k in s.products && !InCart(lines, k) ==> o.store.products[k] == s.products[k])
  {
    var items := ValidateLines(s.products, req.items.value).value;
    CheckoutCommits(s, req, actor, now);
    CommitKeepsLineWrites(s, items, req.paymentMethod.value, req.notes, actor, now);
    LineWritesStockEffect(s.products, req.items.value, Checkout(s, req, actor, now).store.products);
  }

  /**
   * Once validation passed, the ledger gains exactly one `out` movement per cart
   * line, in cart order, by the actor, with the caller's notes or the payment note.
   */
  lemma CheckoutLedgerEffect(s: Store, req: CheckoutRequest, actor: Actor, now: Time)
    requires Validated(s, req)
    ensures var o := Checkout(s, req, actor, now);
            var lines := req.items.value;
            var note := NoteFor(req.notes, req.paymentMethod.value);
      && |o.store.movements| == |s.movements| + |lines|
      && o.store.movements[..|s.movements|] == s.movements
      && (forall i :: 0 <= i < |lines| ==>
            o.store.movements[|s.movements| + i]
            == Movement(s.nextId + i, lines[i].productId, Out, lines[i].quantity, note, actor.id, now))
  {
    CheckoutCommits(s, req, actor, now);
    var items := ValidateLines(s.products, req.items.value).value;
    CommitKeepsLineWrites(s, items, req.paymentMethod.value, req.notes, actor, now);
    forall i | 0 <= i < |items|
      ensures Success(items[i]) == CheckLine(s.products, req.items.value[i])
    {
    }
  }

  /** Once validation passed, the stored products are the line writes applied to the old catalog. */
  lemma CheckoutProducts(s: Store, req: CheckoutRequest, actor: Actor, now: Time)
    requires Validated(s, req)
    ensures Checkout(s, req, actor, now).store.products
            == ApplyStock(s.products, ValidateLines(s.products, req.items.value).value)
  {
    CheckoutCommits(s, req, actor, now);
    CommitKeepsLineWrites(s, ValidateLines(s.products, req.items.value).value, req.paymentMethod.value, req.notes,
                          actor, now);
  }

  // ---------------------------------------------------------------- the sale

  /** A processed line whose total is its unit price times its quantity. */
  predicate PricedLine(it: ProcessedItem) {
    it.item.itemTotal == LineTotal(it.item.unitPrice, it.item.quantity)
  }

  /** A draft of priced lines with a known payment method is stored as a consistent sale of exactly those lines. */
  lemma DraftBecomesSale(items: seq<ProcessedItem>, pm: string, note: string, cashier: UserId, ids: seq<RecordId>,
                         id: RecordId, now: Time)
    requires ParsePaymentMethod(pm).Some?
    requires forall i :: 0 <= i < |items| ==> PricedLine(items[i])
    requires |ids| == |items|
    ensures var r := CreateSale(SaleDraft(items, pm, note, cashier, ids), id, now);
      && r.Success?
      && r.value.id == id
      && |r.value.items| == |items|
      && (forall i :: 0 <= i < |items| ==> r.value.items[i] == items[i].item)
      && Consistent(r.value)
      && r.value.cashier == cashier
      && MethodName(r.value.paymentMethod) == pm
      && r.value.date == now
      && r.value.transactionIds == ids
      && r.value.notes == Some(Trim(note))
  {
    var f := SaleDraft(items, pm, note, cashier, ids);
    var totals := TotalsOf(SumReal(items, LineAmountOf));
    assert f.subtotal == Some(totals.subtotal) && f.tax == Some(totals.tax) && f.total == Some(totals.total);
    assert |f.items| == |items|;
    assert forall i :: 0 <= i < |items| ==> f.items[i] == FieldsOf(items[i]);
    assert SaleAcceptable(f);
    var sale := CreateSale(f, id, now).value;
    assert |sale.items| == |items|;
    forall i | 0 <= i < |items|
      ensures sale.items[i] == items[i].item
    {
      assert f.items[i] == FieldsOf(items[i]);
    }
    SumRealPointwise(items, LineAmountOf, sale.items, SaleModel.ItemTotalOf);
    assert sale.subtotal == totals.subtotal;
    assert Totals(sale.subtotal, sale.tax, sale.total) == TotalsOf(sale.subtotal);
    assert sale.subtotal == SumReal(sale.items, SaleModel.ItemTotalOf);
    assert |sale.transactionIds| == |sale.items|;
  }

  /** With a known payment method the sale draft passes the schema and is stored as drafted. */
  lemma CommitCreatesSale(s: Store, items: seq<ProcessedItem>, pm: string, notes: Option<string>, actor: Actor, now: Time)
    requires ParsePaymentMethod(pm).Some?
    requires forall i :: 0 <= i < |items| ==> PricedLine(items[i])
    ensures var o := Commit(s, items, pm, notes, actor, now);
      && o.response.Success?
      && o.store.products == ApplyStock(s.products, items)
      && o.store.movements == s.movements + SaleMovements(items, NoteFor(notes, pm), actor.id, now, s.nextId)
      && |o.store.sales| == |s.sales| + 1
      && o.store.sales[..|s.sales|] == s.sales
      && var sale := o.store.sales[|s.sales|];
      && sale.id == s.nextId + |items|
      && o.store.nextId == sale.id + 1
      && |sale.items| == |items|
      && (forall i :: 0 <= i < |items| ==> sale.items[i] == items[i].item)
      && Consistent(sale)
      && sale.cashier == actor.id
      && MethodName(sale.paymentMethod) == pm
      && sale.date == now
      && (forall i :: 0 <= i < |items| ==> sale.transactionIds[i] == s.nextId + i)
      && o.response.value.saleId == sale.id
      && o.response.value.transactionIds == sale.transactionIds
      && o.response.value.subtotal == sale.subtotal
      && o.response.value.tax == sale.tax
      && o.response.value.total == sale.total
      && o.response.value.cashier == DisplayName(actor)
      && sale.notes == Some(Trim(NoteFor(notes, pm)))
      && |o.response.value.items| == |items|
      && (forall i :: 0 <= i < |items| ==>
            o.response.value.items[i] == ReceiptLine(items[i].item.productName.GetOr(""), items[i].item.quantity,
                                                     items[i].item.unitPrice, items[i].item.itemTotal))
      && o.response.value.paymentMethod == pm
      && o.response.value.date == sale.date
  {
    var note := NoteFor(notes, pm);
    var ids := IdsOf(SaleMovements(items, note, actor.id, now, s.nextId));
    DraftBecomesSale(items, pm, note, actor.id, ids, s.nextId + |items|, now);
  }

  /**
   * A validated checkout with a known payment method succeeds and charges the sum
   * of the validated line totals plus the flat tax.
   */
  lemma CheckoutCharges(s: Store, req: CheckoutRequest, actor: Actor, now: Time)
    requires Validated(s, req)
    requires ParsePaymentMethod(req.paymentMethod.value).Some?
    ensures ValidateLines(s.products, req.items.value).Success?
    ensures var o := Checkout(s, req, actor, now);
      && o.response.Success?
      && Totals(o.response.value.subtotal, o.response.value.tax, o.response.value.total)
         == TotalsOf(SumReal(ValidateLines(s.products, req.items.value).value, LineAmountOf))
  {
    ValidatedLines(s, req);
    var items := ValidateLines(s.products, req.items.value).value;
    CheckoutCommits(s, req, actor, now);
    CommitCreatesSale(s, items, req.paymentMethod.value, req.notes, actor, now);
    var sale := Checkout(s, req, actor, now).store.sales[|s.sales|];
    SumRealPointwise(items, LineAmountOf, sale.items, SaleModel.ItemTotalOf);
  }

  /** Whether or not the sale is then created, the mutation phase leaves the line writes in the store. */
  lemma CommitKeepsLineWrites(s: Store, items: seq<ProcessedItem>, pm: string, notes: Option<string>,
                              actor: Actor, now: Time)
    ensures var o := Commit(s, items, pm, notes, actor, now);
            var w := WriteLines(s, items, NoteFor(notes, pm), actor.id, now);
      o.store.products == w.products && o.store.movements == w.movements
  {
  }

  /** With an unknown payment method the line writes stay and the sale is refused for that field alone. */
  lemma CommitRefusesSale(s: Store, items: seq<ProcessedItem>, pm: string, notes: Option<string>, actor: Actor, now: Time)
    requires ParsePaymentMethod(pm).None?
    ensures Commit(s, items, pm, notes, actor, now)
            == CheckoutOutcome(WriteLines(s, items, NoteFor(notes, pm), actor.id, now),
                               Failure(SaleNotCreated([NotInEnum("paymentMethod", pm)])))
  {
    var note := NoteFor(notes, pm);
    var ids := IdsOf(SaleMovements(items, note, actor.id, now, s.nextId));
    var f := SaleDraft(items, pm, note, actor.id, ids);
    assert forall i :: 0 <= i < |f.items| ==> ItemComplete(f.items[i]);
    assert ItemsErrors(f.items, 0) == [];
    assert SchemaErrors(f) == [NotInEnum("paymentMethod", pm)];
  }

  /** Checkout succeeds exactly when validation passes and the payment method is one the sale schema knows. */
  lemma CheckoutSucceedsIff(s: Store, req: CheckoutRequest, actor: Actor, now: Time)
    ensures Checkout(s, req, actor, now).response.Success?
            <==> Validated(s, req) && ParsePaymentMethod(req.paymentMethod.value).Some?
  {
    if Validated(s, req) {
      ValidatedLines(s, req);
      var items := ValidateLines(s.products, req.items.value).value;
      if ParsePaymentMethod(req.paymentMethod.value).Some? {
        CommitCreatesSale(s, items, req.paymentMethod.value, req.notes, actor, now);
      } else {
        CommitRefusesSale(s, items, req.paymentMethod.value, req.notes, actor, now);
      }
    }
  }

  /**
   * A payment method outside cash/card/other is only caught when the sale is
   * created, after stock and movements were written: the response is a 500 and
   * the store keeps the movements but gains no sale.
   */
  lemma UnknownMethodPartialWrite(s: Store, req: CheckoutRequest, actor: Actor, now: Time)
    requires Validated(s, req)
    requires ParsePaymentMethod(req.paymentMethod.value).None?
    ensures var o := Checkout(s, req, actor, now);
      && o.response == Failure(SaleNotCreated([NotInEnum("paymentMethod", req.paymentMethod.value)]))
      && StatusCode(o.response.error) == 500
      && o.store.sales == s.sales
      && |o.store.movements| == |s.movements| + |req.items.value| > |s.movements|
      && o.store.products == ApplyStock(s.products, ValidateLines(s.products, req.items.value).value)
  {
    ValidatedLines(s, req);
    CommitRefusesSale(s, ValidateLines(s.products, req.items.value).value, req.paymentMethod.value, req.notes, actor, now);
  }

  /**
   * A successful checkout appends one sale that snapshots the cart lines in order
   * with their validation-time prices, is internally consistent, names the actor
   * as cashier and references exactly the movements just written; the receipt
   * repeats its id, movement ids and totals.
   */
  lemma CheckoutSaleRecord(s: Store, req: CheckoutRequest, actor: Actor, now: Time)
    requires Checkout(s, req, actor, now).response.Success?
    ensures !CartEmpty(req)
    ensures var o := Checkout(s, req, actor, now);
            var lines := req.items.value;
      && |o.store.sales| == |s.sales| + 1
      && o.store.sales[..|s.sales|] == s.sales
      && var sale := o.store.sales[|s.sales|];
      && sale.id == s.nextId + |lines|
      && o.store.nextId == sale.id + 1
      && |sale.items| == |lines|
      && (forall i :: 0 <= i < |lines| ==>
            sale.items[i] == SaleItem(lines[i].productId, Some(s.products[lines[i].productId].name), lines[i].quantity,
                                      s.products[lines[i].productId].price,
                                      LineTotal(s.products[lines[i].productId].price, lines[i].quantity)))
      && Consistent(sale)
      && sale.cashier == actor.id
      && MethodName(sale.paymentMethod) == req.paymentMethod.value
      && sale.date == now
      && |o.store.movements| == |s.movements| + |lines|
      && (forall i :: 0 <= i < |lines| ==> sale.transactionIds[i] == o.store.movements[|s.movements| + i].id)
      && o.response.value.saleId == sale.id
      && o.response.value.transactionIds == sale.transactionIds
      && o.response.value.subtotal == sale.subtotal
      && o.response.value.tax == sale.tax
      && o.response.value.total == sale.total
      && o.response.value.cashier == DisplayName(actor)
  {
    CheckoutSucceedsIff(s, req, actor, now);
    ValidatedLines(s, req);
    var items := ValidateLines(s.products, req.items.value).value;
    CommitCreatesSale(s, items, req.paymentMethod.value, req.notes, actor, now);
  }

  /**
   * A successful checkout's receipt lists every cart line with the product's name,
   * the quantity, the validation-time price and the line total, names the payment
   * method as sent and the sale's date; the stored sale carries the trimmed note.
   */
  lemma CheckoutReceipt(s: Store, req: CheckoutRequest, actor: Actor, now: Time)
    requires Checkout(s, req, actor, now).response.Success?
    ensures !CartEmpty(req) && !MethodMissing(req)
    ensures var o := Checkout(s, req, actor, now);
            var lines := req.items.value;
      && |o.store.sales| == |s.sales| + 1
      && var sale := o.store.sales[|s.sales|];
      && sale.notes == Some(Trim(NoteFor(req.notes, req.paymentMethod.value)))
      && |o.response.value.items| == |lines|
      && (forall i :: 0 <= i < |lines| ==>
            o.response.value.items[i] == ReceiptLine(s.products[lines[i].productId].name, lines[i].quantity,
                                                     s.products[lines[i].productId].price,
                                                     LineTotal(s.products[lines[i].productId].price, lines[i].quantity)))
      && o.response.value.paymentMethod == req.paymentMethod.value
      && o.response.value.date == sale.date
  {
    CheckoutSucceedsIff(s, req, actor, now);
    ValidatedLines(s, req);
    var items := ValidateLines(s.products, req.items.value).value;
    CommitCreatesSale(s, items, req.paymentMethod.value, req.notes, actor, now);
  }

  /** Every checkout, successful or not, keeps all stored quantities non-negative. */
  lemma CheckoutKeepsStockNonNegative(s: Store, req: CheckoutRequest, actor: Actor, now: Time)
    requires StockNonNegative(s.products)
    ensures StockNonNegative(Checkout(s, req, actor, now).store.products)
  {
    if Validated(s, req) {
      ValidatedLines(s, req);
      var items := ValidateLines(s.products, req.items.value).value;
      ApplyStockNonNegative(s.products, items);
      if ParsePaymentMethod(req.paymentMethod.value).Some? {
        CommitCreatesSale(s, items, req.paymentMethod.value, req.notes, actor, now);
      } else {
        CommitRefusesSale(s, items, req.paymentMethod.value, req.notes, actor, now);
      }
    }
  }

  // ---------------------------------------------------------------- record ids

  /** Movement and sale ids increase along their stores and all lie below the next free id. */
  predicate IdsOrdered(s: Store) {
    && (forall i :: 0 <= i < |s.movements| ==> s.movements[i].id < s.nextId)
    && (forall i :: 0 <= i < |s.sales| ==> s.sales[i].id < s.nextId)
    && (forall i, j :: 0 <= i < j < |s.movements| ==> s.movements[i].id < s.movements[j].id)
    && (forall i, j :: 0 <= i < j < |s.sales| ==> s.sales[i].id < s.sales[j].id)
  }

  /** The line writes number their movements after every existing record. */
  lemma WriteLinesKeepsIdsOrdered(s: Store, items: seq<ProcessedItem>, note: string, user: UserId, now: Time)
    requires IdsOrdered(s)
    ensures IdsOrdered(WriteLines(s, items, note, user, now))
  {
    var w := WriteLines(s, items, note, user, now);
    var created := SaleMovements(items, note, user, now, s.nextId);
    assert w.movements == s.movements + created;
    forall i, j | 0 <= i < j < |w.movements|
      ensures w.movements[i].id < w.movements[j].id
    {
      if j >= |s.movements| {
        assert w.movements[j] == created[j - |s.movements|];
        if i >= |s.movements| {
          assert w.movements[i] == created[i - |s.movements|];
        }
      }
    }
  }

  /** Appending a sale numbered with the next free id keeps record ids fresh. */
  lemma AppendSaleKeepsIdsOrdered(w: Store, sale: Sale)
    requires IdsOrdered(w)
    requires sale.id == w.nextId
    ensures IdsOrdered(w.(sales := w.sales + [sale], nextId := w.nextId + 1))
  {
  }

  /** The mutation phase keeps record ids fresh, whether or not the sale is created. */
  lemma CommitKeepsIdsOrdered(s: Store, items: seq<ProcessedItem>, pm: string, notes: Option<string>,
                              actor: Actor, now: Time)
    requires IdsOrdered(s)
    ensures IdsOrdered(Commit(s, items, pm, notes, actor, now).store)
  {
    var note := NoteFor(notes, pm);
    var written := WriteLines(s, items, note, actor.id, now);
    WriteLinesKeepsIdsOrdered(s, items, note, actor.id, now);
    var ids := IdsOf(SaleMovements(items, note, actor.id, now, s.nextId));
    var created := CreateSale(SaleDraft(items, pm, note, actor.id, ids), written.nextId, now);
    if created.Success? {
      AppendSaleKeepsIdsOrdered(written, created.value);
    }
  }

  /**
   * Every checkout keeps record ids fresh: no created movement or sale reuses an id,
   * so the sale's movement ids name exactly the movements it created.
   */
  lemma CheckoutKeepsIdsOrdered(s: Store, req: CheckoutRequest, actor: Actor, now: Time)
    requires IdsOrdered(s)
    ensures IdsOrdered(Checkout(s, req, actor, now).store)
  {
    if Validated(s, req) {
      ValidatedLines(s, req);
      CheckoutCommits(s, req, actor, now);
      CommitKeepsIdsOrdered(s, ValidateLines(s.products, req.items.value).value, req.paymentMethod.value,
                            req.notes, actor, now);
    }
  }
}

=== FILE: checkout_scenarios.dfy ===
/**
 * Concrete checkouts: a two-line sale with its receipt, stock and records, an
 * over-stock refusal, and the inputs that separate the backend's checkout from
 * the corrected one (a repeated product, a negative quantity, an unknown
 * payment method).
 */
module CheckoutScenarios {
  import opened Wrappers
  import opened Money
  import opened Inventory
  import opened SaleModel
  import opened PosCheckout
  import opened CheckoutFacts
  import opened SafeCheckout

  function Widget(stock: int): Product {
    Product("A", "Widget", "SKU-A", "Tools", 100.0, stock)
  }

  function Gadget(stock: int): Product {
    Product("B", "Gadget", "SKU-B", "Tools", 50.0, stock)
  }

  function ShopWith(widgets: int, gadgets: int): Store {
    Store(map["A" := Widget(widgets), "B" := Gadget(gadgets)], [], [], 0)
  }

  function Cashier(): Actor {
    Actor("u1", "Ana", "Cruz")
  }

  function Cart(lines: seq<CartLine>, paymentMethod: string): CheckoutRequest {
    CheckoutRequest(Some(lines), Some(paymentMethod), None)
  }

  /** Two widgets at 100 and one gadget at 50: subtotal 250, tax 5, total 255. */
  lemma TwoLineReceipt()
    ensures var o := Checkout(ShopWith(10, 3), Cart([CartLine("A", 2), CartLine("B", 1)], "cash"), Cashier(), 1000);
      && o.response.Success?
      && o.response.value.subtotal == 250.0
      && o.response.value.tax == 5.0
      && o.response.value.total == 255.0
  {
  }

  /** The same checkout writes two movements and one sale of two lines. */
  lemma TwoLineWrites()
    ensures var o := Checkout(ShopWith(10, 3), Cart([CartLine("A", 2), CartLine("B", 1)], "cash"), Cashier(), 1000);
      && |o.store.movements| == 2
      && |o.store.sales| == 1
      && |o.store.sales[0].items| == 2
  {
  }

  /** The same checkout takes the sold units off each product's stock. */
  lemma TwoLineStock()
    ensures var o := Checkout(ShopWith(10, 3), Cart([CartLine("A", 2), CartLine("B", 1)], "cash"), Cashier(), 1000);
      && o.store.products["A"].quantity == 8
      && o.store.products["B"].quantity == 2
  {
  }

  /** A line asking for more than the stock is refused with the stock on hand, and nothing is written. */
  lemma OverStockLeavesStoreUnchanged()
    ensures var o := Checkout(ShopWith(10, 3), Cart([CartLine("A", 2), CartLine("B", 4)], "cash"), Cashier(), 1000);
      && o == CheckoutOutcome(ShopWith(10, 3), Failure(NotEnoughStock("Gadget", 3)))
      && StatusCode(o.response.error) == 400
  {
  }

  /**
   * The same product on two lines is checked twice against the same stock and
   * written twice from the same copy: one widget in stock, two sold, stock 0.
   */
  lemma DuplicateLinesOversell()
    ensures var o := Checkout(ShopWith(1, 0), Cart([CartLine("A", 1), CartLine("A", 1)], "cash"), Cashier(), 1000);
      && o.response.Success?
      && o.store.products["A"].quantity == 0
      && |o.store.sales| == 1
      && o.store.sales[0].items[0].quantity + o.store.sales[0].items[1].quantity == 2
  {
    var s, req := ShopWith(1, 0), Cart([CartLine("A", 1), CartLine("A", 1)], "cash");
    assert Validated(s, req);
    CheckoutSucceedsIff(s, req, Cashier(), 1000);
    CheckoutSaleRecord(s, req, Cashier(), 1000);
    CheckoutProducts(s, req, Cashier(), 1000);
  }

  /** The corrected checkout refuses the second widget: the first already took the only one. */
  lemma DuplicateLinesRefusedWhenStaged()
    ensures CheckoutCorrected(ShopWith(1, 0), Cart([CartLine("A", 1), CartLine("A", 1)], "cash"), Cashier(), 1000)
            == CheckoutOutcome(ShopWith(1, 0), Failure(NotEnoughStock("Widget", 0)))
  {
  }

  /** A negative line quantity passes the stock check and puts stock back while recording a negative sale. */
  lemma NegativeQuantityRestocks()
    ensures var o := Checkout(ShopWith(0, 0), Cart([CartLine("A", -3)], "cash"), Cashier(), 1000);
      && o.response.Success?
      && o.store.products["A"].quantity == 3
      && o.response.value.subtotal == -300.0
  {
    var s, req := ShopWith(0, 0), Cart([CartLine("A", -3)], "cash");
    assert Validated(s, req);
    CheckoutSucceedsIff(s, req, Cashier(), 1000);
    CheckoutSaleRecord(s, req, Cashier(), 1000);
    CheckoutStockEffect(s, req, Cashier(), 1000);
    var sale := Checkout(s, req, Cashier(), 1000).store.sales[0];
    assert sale.subtotal == -300.0 by {
      assert SumReal(sale.items, SaleModel.ItemTotalOf) == sale.items[0].itemTotal + SumReal(sale.items[1..], SaleModel.ItemTotalOf);
    }
  }

  /** The corrected checkout refuses a non-positive quantity before reading the catalog. */
  lemma NegativeQuantityRefused()
    ensures CheckoutCorrected(ShopWith(0, 0), Cart([CartLine("A", -3)], "cash"), Cashier(), 1000)
            == CheckoutOutcome(ShopWith(0, 0), Failure(InvalidQuantity("A", -3)))
  {
  }

  /** An unknown payment method gets past validation: stock and a movement are written, then a 500. */
  lemma UnknownMethodWritesThenFails()
    ensures var o := Checkout(ShopWith(5, 0), Cart([CartLine("A", 2)], "bitcoin"), Cashier(), 1000);
      && o.response == Failure(SaleNotCreated([NotInEnum("paymentMethod", "bitcoin")]))
      && StatusCode(o.response.error) == 500
      && o.store.products["A"].quantity == 3
      && |o.store.movements| == 1
      && |o.store.sales| == 0
  {
    var s, req := ShopWith(5, 0), Cart([CartLine("A", 2)], "bitcoin");
    assert Validated(s, req);
    UnknownMethodPartialWrite(s, req, Cashier(), 1000);
    CheckoutStockEffect(s, req, Cashier(), 1000);
  }

  /** The corrected checkout refuses the unknown payment method with a 400 before any write. */
  lemma UnknownMethodRefused()
    ensures var o := CheckoutCorrected(ShopWith(5, 0), Cart([CartLine("A", 2)], "bitcoin"), Cashier(), 1000);
      && o == CheckoutOutcome(ShopWith(5, 0), Failure(InvalidPaymentMethod("bitcoin")))
      && StatusCode(o.response.error) == 400
  {
  }
}

=== FILE: inventory.dfy ===
/**
 * The persisted records the checkout and the reports work on: catalog products and
 * stock movements ("transactions" in the repository's own vocabulary).
 */
module Inventory {
  import opened Calendar

  type ProductId = string
  type UserId = string

  /** Identifier of a record the ledger creates (a movement or a sale). */
  type RecordId = nat

  /** A catalog product. Price is exact money; quantity is the units in stock. */
  datatype Product = Product(
    id: ProductId,
    name: string,
    sku: string,
    category: string,
    price: real,
    quantity: int)

  /** Direction of a stock movement: `in` adds stock, `out` removes it (a sale is `out`). */
  datatype Direction = In | Out

  /** One append-only ledger entry: a quantity change of one product by one user. */
  datatype Movement = Movement(
    id: RecordId,
    productId: ProductId,
    direction: Direction,
    quantity: int,
    notes: string,
    userId: UserId,
    createdAt: Time)
}

=== FILE: ledger.dfy ===
/**
 * The movement-based daily report, shared by the cashier's own report and the
 * administrator's report: over the movements selected for a day, only `out`
 * movements add their quantity and their revenue at the product's current price,
 * while every selected movement is counted.
 */
module LedgerReports {
  import opened Wrappers
  import opened Inventory
  import opened Money
  import opened Seqs
  import opened ReportWindows
  import SaleModel

  function IsOut(m: Movement): bool {
    m.direction == Out
  }

  function QuantityOf(m: Movement): int {
    m.quantity
  }

  /** What a movement adds to the items sold: its quantity when `out`, nothing when `in`. */
  function SoldQuantity(m: Movement): (q: int)
    ensures IsOut(m) ==> q == m.quantity
    ensures !IsOut(m) ==> q == 0
  {
    if IsOut(m) then m.quantity else 0
  }

  function ItemsSold(ms: seq<Movement>): int {
    SumInt(ms, SoldQuantity)
  }

  /** An `out` movement can only be priced while its product still exists. */
  predicate Priced(products: map<ProductId, Product>, m: Movement) {
    IsOut(m) ==> m.productId in products
  }

  predicate AllPriced(products: map<ProductId, Product>, ms: seq<Movement>) {
    forall i :: 0 <= i < |ms| ==> Priced(products, ms[i])
  }

  /** Revenue of the `out` movements at the products' current prices. */
  function Revenue(products: map<ProductId, Product>, ms: seq<Movement>): real
    decreases |ms|
  {
    if |ms| == 0 then 0.0
    else
      var m := ms[0];
      (if IsOut(m) && m.productId in products then LineTotal(products[m.productId].price, m.quantity) else 0.0)
      + Revenue(products, ms[1..])
  }

  /** What an `out` movement brings in at its product's current price. */
  function AmountAt(products: map<ProductId, Product>): (f: Movement -> real)
    ensures forall m: Movement :: m.productId in products ==> f(m) == LineTotal(products[m.productId].price, m.quantity)
  {
    (m: Movement) => if m.productId in products then LineTotal(products[m.productId].price, m.quantity) else 0.0
  }

  /** The product of the first `out` movement whose product is gone, if any. */
  function FirstDangling(products: map<ProductId, Product>, ms: seq<Movement>): (r: Option<ProductId>)
    ensures r.None? <==> AllPriced(products, ms)
    ensures r.Some? ==> exists i :: 0 <= i < |ms| && !Priced(products, ms[i]) && ms[i].productId == r.value
                                    && AllPriced(products, ms[..i])
    decreases |ms|
  {
    if |ms| == 0 then None
    else if !Priced(products, ms[0]) then
      assert ms[..0] == [];
      Some(ms[0].productId)
    else
      var r := FirstDangling(products, ms[1..]);
      if r.Some? then
        var i :| 0 <= i < |ms[1..]| && !Priced(products, ms[1..][i]) && ms[1..][i].productId == r.value
                 && AllPriced(products, ms[1..][..i]);
        assert ms[..i + 1] == [ms[0]] + ms[1..][..i];
        r
      else r
  }

  datatype DayReport = DayReport(
    window: Window,
    totalTransactions: nat,
    totalItems: int,
    totals: Totals,
    transactions: seq<Movement>)

  /**
   * An `out` movement whose product was deleted makes the price lookup fail and
   * the report answer 500.
   */
  datatype LedgerError = DanglingProduct(productId: ProductId)

  function LedgerStatus(e: LedgerError): int {
    500
  }

  /** The report over the movements selected for window `w`. */
  function DayReportOf(products: map<ProductId, Product>, ms: seq<Movement>, w: Window)
    : (r: Result<DayReport, LedgerError>)
    ensures r.Success? <==> AllPriced(products, ms)
    ensures r.Failure? ==> exists i :: 0 <= i < |ms| && IsOut(ms[i]) && ms[i].productId !in products
                                       && r.error == DanglingProduct(ms[i].productId)
    ensures r.Success? ==> r.value.window == w && r.value.transactions == ms
    ensures r.Success? ==> r.value.totalTransactions == |ms|
    ensures r.Success? ==> r.value.totalItems == SumInt(Filter(ms, IsOut), QuantityOf)
    ensures r.Success? ==> r.value.totals.subtotal == SumReal(Filter(ms, IsOut), AmountAt(products))
    ensures r.Success? ==> r.value.totals.tax * 50.0 == r.value.totals.subtotal
    ensures r.Success? ==> r.value.totals.total == r.value.totals.subtotal + r.value.totals.tax
  {
    ItemsSoldIsOutQuantity(ms);
    RevenueIsOutAmounts(products, ms);
    match FirstDangling(products, ms)
    case Some(id) => Failure(DanglingProduct(id))
    case None => Success(DayReport(w, |ms|, ItemsSold(ms), TotalsOf(Revenue(products, ms)), ms))
  }

  // ---------------------------------------------------------------- lemmas

  lemma {:induction false} RevenueAppend(products: map<ProductId, Product>, a: seq<Movement>, b: seq<Movement>)
    ensures Revenue(products, a + b) == Revenue(products, a) + Revenue(products, b)
  {
    if |a| == 0 {
      assert a + b == b;
    } else {
      assert (a + b)[1..] == a[1..] + b;
      RevenueAppend(products, a[1..], b);
    }
  }

  /** `in` movements add nothing to the revenue. */
  lemma {:induction false} RevenueOfInbound(products: map<ProductId, Product>, ms: seq<Movement>)
    requires forall i :: 0 <= i < |ms| ==> !IsOut(ms[i])
    ensures Revenue(products, ms) == 0.0
  {
    if |ms| > 0 {
      RevenueOfInbound(products, ms[1..]);
    }
  }

  lemma {:induction false} SoldOfInbound(ms: seq<Movement>)
    requires forall i :: 0 <= i < |ms| ==> !IsOut(ms[i])
    ensures ItemsSold(ms) == 0
  {
    if |ms| > 0 {
      SoldOfInbound(ms[1..]);
    }
  }

  /**
   * Selecting more `in` movements for the day changes only the transaction count:
   * items and money come from `out` movements alone.
   */
  lemma InboundCountsOnlyAsTransactions(products: map<ProductId, Product>, ms: seq<Movement>, extra: seq<Movement>,
                                        w: Window)
    requires AllPriced(products, ms)
    requires forall i :: 0 <= i < |extra| ==> !IsOut(extra[i])
    ensures var before := DayReportOf(products, ms, w);
            var after := DayReportOf(products, ms + extra, w);
      && after.Success?
      && after.value.totalTransactions == before.value.totalTransactions + |extra|
      && after.value.totalItems == before.value.totalItems
      && after.value.totals == before.value.totals
  {
    assert AllPriced(products, ms + extra) by {
      forall i | 0 <= i < |ms + extra|
        ensures Priced(products, (ms + extra)[i])
      {
        if i >= |ms| {
          assert (ms + extra)[i] == extra[i - |ms|];
        }
      }
    }
    RevenueAppend(products, ms, extra);
    RevenueOfInbound(products, extra);
    SumIntAppend(ms, extra, SoldQuantity);
    SoldOfInbound(extra);
  }

  /**
   * Reference reading of `totalItems`: the summed quantities of the `out`
   * movements among those selected.
   */
  lemma {:induction false} ItemsSoldIsOutQuantity(ms: seq<Movement>)
    ensures ItemsSold(ms) == SumInt(Filter(ms, IsOut), QuantityOf)
  {
    if |ms| > 0 {
      ItemsSoldIsOutQuantity(ms[1..]);
      if IsOut(ms[0]) {
        assert Filter(ms, IsOut) == [ms[0]] + Filter(ms[1..], IsOut);
        assert ([ms[0]] + Filter(ms[1..], IsOut))[1..] == Filter(ms[1..], IsOut);
      }
    }
  }

  /**
   * Reference reading of the revenue: each `out` movement among those selected,
   * at its product's current price.
   */
  lemma {:induction false} RevenueIsOutAmounts(products: map<ProductId, Product>, ms: seq<Movement>)
    ensures Revenue(products, ms) == SumReal(Filter(ms, IsOut), AmountAt(products))
  {
    if |ms| > 0 {
      RevenueIsOutAmounts(products, ms[1..]);
      if IsOut(ms[0]) {
        assert Filter(ms, IsOut) == [ms[0]] + Filter(ms[1..], IsOut);
        assert ([ms[0]] + Filter(ms[1..], IsOut))[1..] == Filter(ms[1..], IsOut);
      }
    }
  }

  /** Revenue depends on the catalog only through the presence and price of the sold products. */
  lemma {:induction false} RevenueSamePrices(p: map<ProductId, Product>, q: map<ProductId, Product>, ms: seq<Movement>)
    requires p.Keys == q.Keys
    requires forall k :: k in p ==> p[k].price == q[k].price
    ensures Revenue(p, ms) == Revenue(q, ms)
  {
    if |ms| > 0 {
      RevenueSamePrices(p, q, ms[1..]);
    }
  }

  /** Revenue of sold movements equals the summed totals of sale lines priced the same way. */
  lemma {:induction false} RevenueMatchesItems(products: map<ProductId, Product>, ms: seq<Movement>,
                                              items: seq<SaleModel.SaleItem>)
    requires |ms| == |items|
    requires forall i :: 0 <= i < |ms| ==> IsOut(ms[i]) && ms[i].productId in products
    requires forall i :: 0 <= i < |ms| ==>
      items[i].itemTotal == LineTotal(products[ms[i].productId].price, ms[i].quantity)
    ensures Revenue(products, ms) == SumReal(items, SaleModel.ItemTotalOf)
  {
    if |ms| > 0 {
      RevenueMatchesItems(products, ms[1..], items[1..]);
    }
  }
}

=== FILE: money.dfy ===
/** Exact money arithmetic shared by the checkout, the reports and the client cart. */
module Money {

  /** The flat 2% tax rate every total in the system applies. */
  const TaxRate: real := 0.02

  /** Subtotal, tax and total as the checkout receipt and every report carry them. */
  datatype Totals = Totals(subtotal: real, tax: real, total: real)

  /** The totals for a subtotal: tax at the flat rate on top of it. */
  function TotalsOf(subtotal: real): (t: Totals)
    ensures t.subtotal == subtotal
    ensures t.tax * 50.0 == subtotal
    ensures t.total == subtotal * 1.02
    ensures t.total == t.subtotal + t.tax
  {
    var tax := subtotal * TaxRate;
    Totals(subtotal, tax, subtotal + tax)
  }

  /** Totals computed from a sum of subtotals are the sums of the separate totals. */
  lemma TotalsAdditive(a: real, b: real)
    ensures TotalsOf(a + b).tax == TotalsOf(a).tax + TotalsOf(b).tax
    ensures TotalsOf(a + b).total == TotalsOf(a).total + TotalsOf(b).total
  {
  }

  /** The amount of a line: unit price times quantity. */
  function LineTotal(unitPrice: real, quantity: int): real {
    unitPrice * quantity as real
  }

  /** Sum of `f` over a sequence, left to right. */
  function SumReal<T>(s: seq<T>, f: T -> real): real
  {
    if |s| == 0 then 0.0 else f(s[0]) + SumReal(s[1..], f)
  }

  /** Sum of `f` over a sequence, left to right. */
  function SumInt<T>(s: seq<T>, f: T -> int): int
  {
    if |s| == 0 then 0 else f(s[0]) + SumInt(s[1..], f)
  }

  lemma {:induction false} SumRealAppend<T>(a: seq<T>, b: seq<T>, f: T -> real)
    ensures SumReal(a + b, f) == SumReal(a, f) + SumReal(b, f)
  {
    if |a| == 0 {
      assert a + b == b;
    } else {
      assert (a + b)[1..] == a[1..] + b;
      SumRealAppend(a[1..], b, f);
    }
  }

  lemma {:induction false} SumIntAppend<T>(a: seq<T>, b: seq<T>, f: T -> int)
    ensures SumInt(a + b, f) == SumInt(a, f) + SumInt(b, f)
  {
    if |a| == 0 {
      assert a + b == b;
    } else {
      assert (a + b)[1..] == a[1..] + b;
      SumIntAppend(a[1..], b, f);
    }
  }

  /** Sequences whose elements contribute pointwise equal amounts have equal sums. */
  lemma {:induction false} SumRealPointwise<A, B>(a: seq<A>, f: A -> real, b: seq<B>, g: B -> real)
    requires |a| == |b|
    requires forall i :: 0 <= i < |a| ==> f(a[i]) == g(b[i])
    ensures SumReal(a, f) == SumReal(b, g)
  {
    if |a| > 0 {
      SumRealPointwise(a[1..], f, b[1..], g);
    }
  }

  /** Sequences whose elements contribute pointwise equal amounts have equal sums. */
  lemma {:induction false} SumIntPointwise<A, B>(a: seq<A>, f: A -> int, b: seq<B>, g: B -> int)
    requires |a| == |b|
    requires forall i :: 0 <= i < |a| ==> f(a[i]) == g(b[i])
    ensures SumInt(a, f) == SumInt(b, g)
  {
    if |a| > 0 {
      SumIntPointwise(a[1..], f, b[1..], g);
    }
  }
}

=== FILE: pos_cart.dfy ===
/**
 * The point-of-sale page's client state: the product filter, the cart the
 * cashier edits, its totals and the checkout request it sends.
 */
module PosCart {
  import opened Wrappers
  import opened Calendar
  import opened Money
  import opened Text
  import opened Seqs
  import opened Inventory
  import opened SaleModel
  import opened PosCheckout
  import opened CheckoutFacts
  import opened SafeCheckout

  // ---------------------------------------------------------------- product filter

  /**
   * Case-insensitive search on name or SKU. The term is matched untrimmed; only
   * the decision whether to search at all looks at the trimmed term.
   */
  predicate MatchesSearch(p: Product, term: string) {
    Contains(ToLower(p.name), ToLower(term)) || Contains(ToLower(p.sku), ToLower(term))
  }

  /** The products of the chosen category, or all of them for "all". */
  function InCategory(products: seq<Product>, category: string): (r: seq<Product>)
    ensures forall p: Product ::
      multiset(r)[p] == if category == "all" || p.category == category then multiset(products)[p] else 0
  {
    if category == "all" then products
    else
      var inCategory := (p: Product) => p.category == category;
      FilterCounts(products, inCategory);
      Filter(products, inCategory)
  }

  /** The products matching the search term, or all of them for a blank term. */
  function MatchingTerm(products: seq<Product>, term: string): (r: seq<Product>)
    ensures forall p: Product ::
      multiset(r)[p] == if Trim(term) == "" || MatchesSearch(p, term) then multiset(products)[p] else 0
  {
    if Trim(term) == "" then products
    else
      var matching := (p: Product) => MatchesSearch(p, term);
      FilterCounts(products, matching);
      Filter(products, matching)
  }

  /** The products shown: the chosen category unless it is "all", then the search term unless it is blank. */
  function VisibleProducts(products: seq<Product>, category: string, term: string): (r: seq<Product>)
    ensures forall i :: 0 <= i < |r| ==> r[i] in products
    ensures forall i :: 0 <= i < |r| ==> category == "all" || r[i].category == category
    ensures forall i :: 0 <= i < |r| ==> Trim(term) == "" || MatchesSearch(r[i], term)
    ensures forall i :: 0 <= i < |products|
              && (category == "all" || products[i].category == category)
              && (Trim(term) == "" || MatchesSearch(products[i], term))
              ==> products[i] in r
    ensures forall p: Product ::
      multiset(r)[p] == if Shown(p, category, term) then multiset(products)[p] else 0
  {
    MatchingTerm(InCategory(products, category), term)
  }

  /** Whether the page shows a product for the chosen category and search term. */
  predicate Shown(p: Product, category: string, term: string) {
    (category == "all" || p.category == category) && (Trim(term) == "" || MatchesSearch(p, term))
  }

  /** Filtering a concatenated list filters each part, so the shown products keep the catalog's order. */
  lemma {:induction false} VisibleProductsAppend(a: seq<Product>, b: seq<Product>, category: string, term: string)
    ensures VisibleProducts(a + b, category, term) == VisibleProducts(a, category, term) + VisibleProducts(b, category, term)
  {
    if category != "all" {
      FilterAppend(a, b, (p: Product) => p.category == category);
    }
    if Trim(term) != "" {
      FilterAppend(InCategory(a, category), InCategory(b, category), (p: Product) => MatchesSearch(p, term));
    }
  }

  /** A single product is shown exactly when it belongs to the category and matches the term. */
  lemma VisibleProductsSingleton(p: Product, category: string, term: string)
    ensures VisibleProducts([p], category, term) == if Shown(p, category, term) then [p] else []
  {
  }

  // ---------------------------------------------------------------- cart

  /** A cart entry: the product as it was when added, and the quantity in the cart. */
  datatype CartItem = CartItem(product: Product, cartQty: int)

  type Cart = seq<CartItem>

  /**
   * Why a cart handler left the cart as it was. `OutOfStock`, `OnlyAvailable` and
   * `CartIsEmpty` are refusals that set the page's error message;
   * `ThrewTypeError` is the quantity handler reading `quantity` of an entry the
   * cart does not hold, which throws before any state is set, so no message shows.
   */
  datatype CartError =
    | OutOfStock
    | OnlyAvailable(quantity: int)
    | ThrewTypeError(productId: ProductId)
    | CartIsEmpty

  /** Whether the page shows a message for the error. */
  predicate ShowsMessage(e: CartError) {
    !e.ThrewTypeError?
  }

  /** A cart handler's effect: the new cart, and why the action was not carried out, if it was not. */
  datatype CartStep = CartStep(cart: Cart, error: Option<CartError>)

  predicate HasItem(cart: Cart, id: ProductId) {
    exists i :: 0 <= i < |cart| && cart[i].product.id == id
  }

  /** The first entry for the product, as `cart.find` returns it. */
  function Find(cart: Cart, id: ProductId): (r: Option<CartItem>)
    ensures r.None? <==> !HasItem(cart, id)
    ensures r.Some? ==> exists i :: 0 <= i < |cart| && cart[i] == r.value && r.value.product.id == id
                                    && forall j :: 0 <= j < i ==> cart[j].product.id != id
  {
    if |cart| == 0 then None
    else if cart[0].product.id == id then Some(cart[0])
    else
      var r := Find(cart[1..], id);
      assert forall j :: 0 <= j < |cart[1..]| ==> cart[1..][j] == cart[j + 1];
      r
  }

  /** Sets the cart quantity of every entry for the product; the others stay as they are. */
  function WithQty(cart: Cart, id: ProductId, qty: int): (r: Cart)
    ensures |r| == |cart|
    ensures forall i :: 0 <= i < |cart| ==>
      r[i] == if cart[i].product.id == id then cart[i].(cartQty := qty) else cart[i]
  {
    seq(|cart|, i requires 0 <= i < |cart| => if cart[i].product.id == id then cart[i].(cartQty := qty) else cart[i])
  }

  /** Raises the cart quantity of every entry for the product by one; the others stay as they are. */
  function Incremented(cart: Cart, id: ProductId): (r: Cart)
    ensures |r| == |cart|
    ensures forall i :: 0 <= i < |cart| && cart[i].product.id == id ==> r[i].cartQty == cart[i].cartQty + 1
    ensures forall i :: 0 <= i < |cart| ==> r[i].product == cart[i].product
    ensures forall i :: 0 <= i < |cart| && cart[i].product.id != id ==> r[i] == cart[i]
  {
    seq(|cart|, i requires 0 <= i < |cart| =>
      if cart[i].product.id == id then cart[i].(cartQty := cart[i].cartQty + 1) else cart[i])
  }

  /** Drops every entry for the product; the others keep their order and values. */
  function Remove(cart: Cart, id: ProductId): (r: Cart)
    ensures forall i :: 0 <= i < |r| ==> r[i].product.id != id && r[i] in cart
    ensures forall i :: 0 <= i < |cart| && cart[i].product.id != id ==> cart[i] in r
    ensures !HasItem(cart, id) ==> r == cart
  {
    var keep := (it: CartItem) => it.product.id != id;
    if !HasItem(cart, id) then
      FilterAll(cart, keep);
      Filter(cart, keep)
    else Filter(cart, keep)
  }

  /**
   * Adding a product: out of stock refuses, an entry already in the cart grows by
   * one while below the product's stock, and a new product enters with quantity 1.
   */
  function AddToCart(cart: Cart, p: Product): (r: CartStep)
    ensures p.quantity == 0 ==> r == CartStep(cart, Some(OutOfStock))
    ensures p.quantity != 0 && !HasItem(cart, p.id) ==> r == CartStep(cart + [CartItem(p, 1)], None)
    ensures p.quantity != 0 && HasItem(cart, p.id) ==>
      (r.error.None? <==> Find(cart, p.id).value.cartQty < p.quantity)
    ensures p.quantity != 0 && HasItem(cart, p.id) && r.error.None? ==>
      && |r.cart| == |cart|
      && (forall i :: 0 <= i < |cart| && cart[i].product.id == p.id ==>
            r.cart[i] == cart[i].(cartQty := cart[i].cartQty + 1))
      && (forall i :: 0 <= i < |cart| && cart[i].product.id != p.id ==> r.cart[i] == cart[i])
    ensures r.error.Some? ==> r.cart == cart
  {
    if p.quantity == 0 then CartStep(cart, Some(OutOfStock))
    else
      match Find(cart, p.id)
      case Some(existing) =>
        if existing.cartQty < p.quantity then CartStep(Incremented(cart, p.id), None)
        else CartStep(cart, Some(OnlyAvailable(p.quantity)))
      case None => CartStep(cart + [CartItem(p, 1)], None)
  }

  /**
   * Changing a cart quantity: zero or less removes the entry, more than the
   * entry's recorded stock is refused with "Only N items available", anything
   * else is set. For an entry that is not in the cart the lookup yields
   * `undefined` and reading its stock throws: nothing changes and no message shows.
   */
  function UpdateQty(cart: Cart, id: ProductId, newQty: int): (r: CartStep)
    ensures newQty <= 0 ==> r == CartStep(Remove(cart, id), None)
    ensures newQty > 0 && !HasItem(cart, id) ==> r == CartStep(cart, Some(ThrewTypeError(id)))
    ensures newQty > 0 && HasItem(cart, id) ==>
      (r.error.None? <==> newQty <= Find(cart, id).value.product.quantity)
    ensures newQty > 0 && HasItem(cart, id) && r.error.Some? ==>
      r.error.value == OnlyAvailable(Find(cart, id).value.product.quantity)
    ensures newQty > 0 && r.error.None? ==> r.cart == WithQty(cart, id, newQty)
    ensures r.error.Some? ==> r.cart == cart
    ensures r.error.Some? ==> (ShowsMessage(r.error.value) <==> HasItem(cart, id))
  {
    if newQty <= 0 then CartStep(Remove(cart, id), None)
    else
      match Find(cart, id)
      case None => CartStep(cart, Some(ThrewTypeError(id)))
      case Some(item) =>
        if newQty > item.product.quantity then CartStep(cart, Some(OnlyAvailable(item.product.quantity)))
        else CartStep(WithQty(cart, id, newQty), None)
  }

  // ---------------------------------------------------------------- cart invariant

  predicate DistinctEntries(cart: Cart) {
    forall i, j :: 0 <= i < j < |cart| ==> cart[i].product.id != cart[j].product.id
  }

  /** Each product appears once, with a cart quantity between 1 and its recorded stock. */
  predicate CartInv(cart: Cart) {
    && DistinctEntries(cart)
    && forall i :: 0 <= i < |cart| ==> 1 <= cart[i].cartQty <= cart[i].product.quantity
  }

  /** The cart's recorded stock of the product is the catalog's. */
  predicate SnapshotMatches(cart: Cart, p: Product) {
    forall i :: 0 <= i < |cart| && cart[i].product.id == p.id ==> cart[i].product.quantity == p.quantity
  }

  lemma AddKeepsCartInv(cart: Cart, p: Product)
    requires CartInv(cart)
    requires p.quantity >= 0
    requires SnapshotMatches(cart, p)
    ensures CartInv(AddToCart(cart, p).cart)
  {
    var r := AddToCart(cart, p);
    if p.quantity != 0 && HasItem(cart, p.id) && r.error.None? {
      var existing := Find(cart, p.id).value;
      forall i | 0 <= i < |cart| && cart[i].product.id == p.id
        ensures cart[i] == existing
      {
        var k :| 0 <= k < |cart| && cart[k] == existing && existing.product.id == p.id;
        assert i == k;
      }
    }
  }

  /** In a cart without repeated products, adding one more sets the entry to its quantity plus one. */
  lemma IncrementOnDistinctCart(cart: Cart, id: ProductId)
    requires DistinctEntries(cart)
    requires HasItem(cart, id)
    ensures Incremented(cart, id) == WithQty(cart, id, Find(cart, id).value.cartQty + 1)
  {
    var existing := Find(cart, id).value;
    FoundIsOnlyEntry(cart, id);
    IncrementOneEntry(cart, id, existing);
  }

  /** In a cart without repeats, every entry for the product is the one `Find` returns. */
  lemma FoundIsOnlyEntry(cart: Cart, id: ProductId)
    requires DistinctEntries(cart)
    requires HasItem(cart, id)
    ensures forall i :: 0 <= i < |cart| && cart[i].product.id == id ==> cart[i] == Find(cart, id).value
  {
    var existing := Find(cart, id).value;
    var k :| 0 <= k < |cart| && cart[k] == existing && existing.product.id == id;
    forall i | 0 <= i < |cart| && cart[i].product.id == id
      ensures cart[i] == existing
    {
      assert i == k;
    }
  }

  /** When every entry for the product is `it`, raising each by one is setting each to `it`'s quantity plus one. */
  lemma IncrementOneEntry(cart: Cart, id: ProductId, it: CartItem)
    requires forall i :: 0 <= i < |cart| && cart[i].product.id == id ==> cart[i] == it
    ensures Incremented(cart, id) == WithQty(cart, id, it.cartQty + 1)
  {
    var inc, set1 := Incremented(cart, id), WithQty(cart, id, it.cartQty + 1);
    forall i | 0 <= i < |cart|
      ensures inc[i] == set1[i]
    {
      if cart[i].product.id == id {
        assert inc[i] == CartItem(it.product, it.cartQty + 1) == set1[i];
      }
    }
    assert |inc| == |set1|;
  }


  /** Removing from a concatenation removes from each part, keeping the order. */
  lemma {:induction false} RemoveAppend(a: Cart, b: Cart, id: ProductId)
    ensures Remove(a + b, id) == Remove(a, id) + Remove(b, id)
  {
    FilterAppend(a, b, (it: CartItem) => it.product.id != id);
  }

  /** A single entry is dropped exactly when it is for the product. */
  lemma RemoveSingleton(it: CartItem, id: ProductId)
    ensures Remove([it], id) == if it.product.id == id then [] else [it]
  {
  }

  lemma {:induction false} RemoveKeepsDistinct(cart: Cart, id: ProductId)
    requires DistinctEntries(cart)
    ensures DistinctEntries(Remove(cart, id))
    ensures |Remove(cart, id)| == |cart| - (if HasItem(cart, id) then 1 else 0)
  {
    var keep := (it: CartItem) => it.product.id != id;
    if |cart| > 0 {
      RemoveKeepsDistinct(cart[1..], id);
      assert Remove(cart, id) == if keep(cart[0]) then [cart[0]] + Remove(cart[1..], id) else Remove(cart[1..], id);
      if cart[0].product.id == id {
        assert !HasItem(cart[1..], id);
      } else {
        assert HasItem(cart, id) <==> HasItem(cart[1..], id) by {
          if HasItem(cart, id) {
            var j :| 0 <= j < |cart| && cart[j].product.id == id;
            assert cart[1..][j - 1].product.id == id;
          }
          if HasItem(cart[1..], id) {
            var j :| 0 <= j < |cart[1..]| && cart[1..][j].product.id == id;
            assert cart[j + 1].product.id == id;
          }
        }
        var rest := Remove(cart[1..], id);
        forall j | 0 <= j < |rest|
          ensures rest[j].product.id != cart[0].product.id
        {
          assert rest[j] in cart[1..];
        }
      }
    }
  }

  lemma UpdateKeepsCartInv(cart: Cart, id: ProductId, newQty: int)
    requires CartInv(cart)
    ensures CartInv(UpdateQty(cart, id, newQty).cart)
  {
    if newQty <= 0 {
      RemoveKeepsDistinct(cart, id);
    } else if HasItem(cart, id) && newQty <= Find(cart, id).value.product.quantity {
      var item := Find(cart, id).value;
      forall i | 0 <= i < |cart| && cart[i].product.id == id
        ensures cart[i] == item
      {
        var k :| 0 <= k < |cart| && cart[k] == item && item.product.id == id;
        assert i == k;
      }
    }
  }

  lemma RemoveKeepsCartInv(cart: Cart, id: ProductId)
    requires CartInv(cart)
    ensures CartInv(Remove(cart, id))
  {
    RemoveKeepsDistinct(cart, id);
  }

  // ---------------------------------------------------------------- totals and checkout

  function CartAmountOf(it: CartItem): real {
    LineTotal(it.product.price, it.cartQty)
  }

  /** Subtotal of price times cart quantity, and the same flat tax as the backend. */
  function CartTotals(cart: Cart): (t: Totals)
    ensures t.subtotal == SumReal(cart, CartAmountOf)
    ensures t.tax * 50.0 == t.subtotal
    ensures t.total == t.subtotal + t.tax
  {
    TotalsOf(SumReal(cart, CartAmountOf))
  }

  function LineOf(it: CartItem): CartLine {
    CartLine(it.product.id, it.cartQty)
  }

  /** The payment method the page always sends. */
  const PagePaymentMethod: string := "cash"

  /**
   * The checkout request: an empty cart is refused before any request; otherwise
   * one line per entry with its cart quantity, paid in cash, with empty notes.
   */
  function CheckoutPayload(cart: Cart): (r: Result<CheckoutRequest, CartError>)
    ensures r.Failure? <==> |cart| == 0
    ensures r.Failure? ==> r.error == CartIsEmpty
    ensures r.Success? ==>
      && r.value.items.Some?
      && |r.value.items.value| == |cart|
      && (forall i :: 0 <= i < |cart| ==> r.value.items.value[i] == CartLine(cart[i].product.id, cart[i].cartQty))
      && r.value.paymentMethod == Some("cash")
      && r.value.notes == Some("")
  {
    if |cart| == 0 then Failure(CartIsEmpty)
    else Success(CheckoutRequest(Some(seq(|cart|, i requires 0 <= i < |cart| => LineOf(cart[i]))),
                                 Some(PagePaymentMethod), Some("")))
  }

  /**
   * A cart that keeps its invariant sends a request on which the backend's
   * validation gaps do not matter: distinct products, positive quantities, a
   * known payment method, so the checkout as written and the corrected one agree.
   */
  lemma PageCartsAreWellFormed(cart: Cart, s: Store, actor: Actor, now: Time)
    requires CartInv(cart)
    requires |cart| > 0
    ensures var req := CheckoutPayload(cart).value;
      && !CartEmpty(req)
      && DistinctProducts(req.items.value)
      && (forall i :: 0 <= i < |req.items.value| ==> req.items.value[i].quantity > 0)
      && CheckoutCorrected(s, req, actor, now) == Checkout(s, req, actor, now)
  {
    var req := CheckoutPayload(cart).value;
    assert ParsePaymentMethod("cash") == Some(Cash);
    CorrectedAgreesOnWellFormedCarts(s, req, actor, now);
  }

  /**
   * When the cart's recorded prices are the store's and the store still holds the
   * quantities, the checkout succeeds and the receipt shows the page's own totals.
   */
  lemma PageTotalsMatchReceipt(cart: Cart, s: Store, actor: Actor, now: Time)
    requires CartInv(cart)
    requires |cart| > 0
    requires forall i :: 0 <= i < |cart| ==>
      && cart[i].product.id in s.products
      && s.products[cart[i].product.id].price == cart[i].product.price
      && cart[i].cartQty <= s.products[cart[i].product.id].quantity
    ensures var o := Checkout(s, CheckoutPayload(cart).value, actor, now);
      && o.response.Success?
      && o.response.value.subtotal == CartTotals(cart).subtotal
      && o.response.value.tax == CartTotals(cart).tax
      && o.response.value.total == CartTotals(cart).total
  {
    var req := CheckoutPayload(cart).value;
    var lines := req.items.value;
    assert Validated(s, req) by {
      assert ParsePaymentMethod("cash") == Some(Cash);
      assert forall i :: 0 <= i < |lines| ==> LineValid(s.products, lines[i]);
    }
    CheckoutCharges(s, req, actor, now);
    ValidatedLines(s, req);
    var items := ValidateLines(s.products, lines).value;
    assert forall i :: 0 <= i < |cart| ==> CartAmountOf(cart[i]) == LineAmountOf(items[i]);
    SumRealPointwise(cart, CartAmountOf, items, LineAmountOf);
  }
}

=== FILE: pos_queries.dfy ===
/**
 * The cashier's read-only queries over the movement ledger: the paged sales
 * history (own movements, newest first) and the own-movements daily report.
 */
module PosQueries {
  import opened Wrappers
  import opened Calendar
  import opened Inventory
  import opened Money
  import opened Seqs
  import opened ReportWindows
  import opened LedgerReports
  import opened PosCheckout

  // ---------------------------------------------------------------- newest first

  /** Non-increasing creation time from front to back. */
  predicate NewestFirstOrder(ms: seq<Movement>) {
    forall i, j :: 0 <= i < j < |ms| ==> ms[i].createdAt >= ms[j].createdAt
  }

  /** Places `m` before the first movement that is not newer than it. */
  function Insert(m: Movement, sorted: seq<Movement>): (r: seq<Movement>)
    requires NewestFirstOrder(sorted)
    ensures NewestFirstOrder(r)
    ensures multiset(r) == multiset(sorted) + multiset{m}
    ensures |r| == |sorted| + 1
    ensures r[0] == m || (|sorted| > 0 && r[0] == sorted[0])
    decreases |sorted|
  {
    if |sorted| == 0 || sorted[0].createdAt <= m.createdAt then [m] + sorted
    else
      var rest := Insert(m, sorted[1..]);
      assert sorted == [sorted[0]] + sorted[1..];
      assert sorted[0].createdAt >= rest[0].createdAt;
      [sorted[0]] + rest
  }

  /** The ledger sorted by creation time, newest first; ties keep their ledger order. */
  function SortNewestFirst(ms: seq<Movement>): (r: seq<Movement>)
    ensures NewestFirstOrder(r)
    ensures multiset(r) == multiset(ms)
    ensures |r| == |ms|
    decreases |ms|
  {
    if |ms| == 0 then []
    else
      assert ms == [ms[0]] + ms[1..];
      Insert(ms[0], SortNewestFirst(ms[1..]))
  }

  // ---------------------------------------------------------------- paging

  function Abs(n: int): nat {
    if n < 0 then -n else n
  }

  /**
   * Skip `skip` entries, then keep `limit` of them. A limit of 0 means no
   * limit and a negative limit keeps as many as its magnitude.
   */
  function Page(sorted: seq<Movement>, limit: int, skip: nat): (r: seq<Movement>)
    ensures skip >= |sorted| ==> r == []
    ensures skip < |sorted| ==> skip + |r| <= |sorted| && r == sorted[skip..skip + |r|]
    ensures limit == 0 && skip < |sorted| ==> |r| == |sorted| - skip
    ensures limit != 0 && skip < |sorted| ==>
      |r| == (if Abs(limit) < |sorted| - skip then Abs(limit) else |sorted| - skip)
  {
    var rest := if skip >= |sorted| then [] else sorted[skip..];
    var n := if limit == 0 || Abs(limit) >= |rest| then |rest| else Abs(limit);
    rest[..n]
  }

  /** Two consecutive pages of size `k` make up the first page of size `2k`. */
  lemma ConsecutivePages(sorted: seq<Movement>, k: nat)
    requires k > 0
    ensures Page(sorted, k, 0) + Page(sorted, k, k) == Page(sorted, 2 * k, 0)
  {
    var a, b, c := Page(sorted, k, 0), Page(sorted, k, k), Page(sorted, 2 * k, 0);
    if k >= |sorted| {
      assert b == [];
      assert a == sorted[0..|sorted|] == sorted;
      assert c == sorted[0..|sorted|];
    } else {
      assert a == sorted[0..k];
      assert c == sorted[0..k + |b|];
      assert sorted[0..k + |b|] == sorted[0..k] + sorted[k..k + |b|];
    }
  }

  // ---------------------------------------------------------------- history

  /** The movements the user created, in ledger order. */
  function MovementsBy(ms: seq<Movement>, user: UserId): (r: seq<Movement>)
    ensures forall i :: 0 <= i < |r| ==> r[i].userId == user && r[i] in ms
    ensures forall i :: 0 <= i < |ms| && ms[i].userId == user ==> ms[i] in r
    ensures forall m: Movement :: multiset(r)[m] == if m.userId == user then multiset(ms)[m] else 0
  {
    var mine := (m: Movement) => m.userId == user;
    FilterCounts(ms, mine);
    Filter(ms, mine)
  }

  datatype HistoryPage = HistoryPage(transactions: seq<Movement>, total: nat, limit: int, skip: int)

  /** The store refuses a negative skip; the response is a 500. */
  datatype HistoryError = NegativeSkip(skip: int)

  function HistoryStatus(e: HistoryError): int {
    500
  }

  /** Every page of a newest-first list is newest-first and drawn from the list. */
  lemma PageOfSorted(sorted: seq<Movement>, limit: int, skip: nat)
    requires NewestFirstOrder(sorted)
    ensures var page := Page(sorted, limit, skip);
      && NewestFirstOrder(page)
      && (forall i :: 0 <= i < |page| ==> page[i] in sorted)
      && (limit != 0 ==> |page| <= Abs(limit))
  {
    var page := Page(sorted, limit, skip);
    if skip < |sorted| {
      forall i | 0 <= i < |page|
        ensures page[i] == sorted[skip + i]
      {
      }
    }
  }

  /**
   * The user's sales history: `limit` and `skip` default to 20 and 0 when the
   * query does not give them.
   */
  function SalesHistory(ms: seq<Movement>, user: UserId, limit: Option<int>, skip: Option<int>)
    : (r: Result<HistoryPage, HistoryError>)
    ensures r.Failure? <==> skip.Some? && skip.value < 0
    ensures r.Success? ==>
      && r.value.limit == limit.GetOr(20)
      && r.value.skip == skip.GetOr(0)
      && r.value.total == |MovementsBy(ms, user)|
      && NewestFirstOrder(r.value.transactions)
      && (forall i :: 0 <= i < |r.value.transactions| ==>
            r.value.transactions[i].userId == user && r.value.transactions[i] in ms)
      && (r.value.limit != 0 ==> |r.value.transactions| <= Abs(r.value.limit))
      && r.value.transactions == Page(SortNewestFirst(MovementsBy(ms, user)), r.value.limit, r.value.skip)
  {
    var l := limit.GetOr(20);
    var k := skip.GetOr(0);
    if k < 0 then Failure(NegativeSkip(k))
    else
      var mine := MovementsBy(ms, user);
      var sorted := SortNewestFirst(mine);
      var page := Page(sorted, l, k);
      PageOfSorted(sorted, l, k);
      assert forall x :: x in sorted ==> x in multiset(mine);
      Success(HistoryPage(page, |mine|, l, k))
  }

  // ---------------------------------------------------------------- daily report

  /** The user's movements created inside the window, in ledger order. */
  function CashierMovementsIn(ms: seq<Movement>, user: UserId, w: Window): (r: seq<Movement>)
    ensures forall i :: 0 <= i < |r| ==> r[i].userId == user && InWindow(w, r[i].createdAt) && r[i] in ms
    ensures forall i :: 0 <= i < |ms| && ms[i].userId == user && InWindow(w, ms[i].createdAt) ==> ms[i] in r
    ensures forall m: Movement ::
      multiset(r)[m] == if m.userId == user && InWindow(w, m.createdAt) then multiset(ms)[m] else 0
  {
    var selected := (m: Movement) => m.userId == user && InWindow(w, m.createdAt);
    FilterCounts(ms, selected);
    Filter(ms, selected)
  }

  /** The cashier's report for the local day of `now`, over the cashier's own movements. */
  function DailyReport(s: Store, user: UserId, now: Time): (r: Result<DayReport, LedgerError>)
    ensures var w := DayWindow(now);
      && (r.Success? <==> AllPriced(s.products, CashierMovementsIn(s.movements, user, w)))
      && (r.Success? ==> r.value.window == w && r.value.totalTransactions == |CashierMovementsIn(s.movements, user, w)|)
      && (r.Success? ==> r.value.totalItems == SumInt(Filter(CashierMovementsIn(s.movements, user, w), IsOut), QuantityOf))
      && (r.Success? ==> r.value.totals == TotalsOf(SumReal(Filter(CashierMovementsIn(s.movements, user, w), IsOut), AmountAt(s.products))))
  {
    var w := DayWindow(now);
    DayReportOf(s.products, CashierMovementsIn(s.movements, user, w), w)
  }
}

=== FILE: product_detail.dfy ===
/** The product page's stock badge and inventory value. */
module ProductDetail {
  import opened Wrappers

  datatype StockStatus = OutOfStock | LowStock | InStock

  function StatusText(s: StockStatus): string {
    match s
    case OutOfStock => "Out of Stock"
    case LowStock => "Low Stock"
    case InStock => "In Stock"
  }

  /** Zero is out of stock, anything else below 10 (negative counts included) is low, the rest in stock. */
  function GetStockStatus(quantity: int): (r: StockStatus)
    ensures r == OutOfStock <==> quantity == 0
    ensures r == LowStock <==> quantity != 0 && quantity < 10
    ensures r == InStock <==> quantity >= 10
  {
    if quantity == 0 then OutOfStock
    else if quantity < 10 then LowStock
    else InStock
  }

  /** A missing field counts as zero, as `x || 0` reads it. */
  function RealOrZero(v: Option<real>): real {
    v.GetOr(0.0)
  }

  function IntOrZero(v: Option<int>): int {
    v.GetOr(0)
  }

  /** Price times quantity, with a missing price or quantity counting as zero. */
  function TotalValue(price: Option<real>, quantity: Option<int>): (v: real)
    ensures price.None? || quantity.None? ==> v == 0.0
    ensures price.Some? && quantity.Some? ==> v == price.value * quantity.value as real
  {
    RealOrZero(price) * IntOrZero(quantity) as real
  }
}

=== FILE: register.dfy ===
/** The sign-up form's submit handler. */
module RegisterPage {
  import opened Wrappers
  import opened AuthContext

  datatype RegisterForm = RegisterForm(
    username: string,
    email: string,
    password: string,
    confirmPassword: string,
    firstName: string,
    lastName: string)

  /** What is sent to the service: the form without the confirmation field. */
  datatype UserData = UserData(username: string, email: string, password: string, firstName: string, lastName: string)

  function PayloadOf(f: RegisterForm): UserData {
    UserData(f.username, f.email, f.password, f.firstName, f.lastName)
  }

  const MinPasswordLength: nat := 6

  /** The client-side checks, mismatch first. */
  function FormError(f: RegisterForm): (r: Option<string>)
    ensures f.password != f.confirmPassword ==> r == Some("Passwords do not match")
    ensures f.password == f.confirmPassword && |f.password| < MinPasswordLength
            ==> r == Some("Password must be at least 6 characters")
    ensures r.None? <==> f.password == f.confirmPassword && |f.password| >= MinPasswordLength
  {
    if f.password != f.confirmPassword then Some("Passwords do not match")
    else if |f.password| < MinPasswordLength then Some("Password must be at least 6 characters")
    else None
  }

  datatype PageEffect = ShowError(message: string) | Navigate(path: string)

  /**
   * Submitting: a form that fails the checks shows its message without calling
   * the service; otherwise the payload goes to register, and the page navigates
   * to the dashboard or shows the returned message.
   */
  datatype Submission = Submission(sent: Option<UserData>, state: AuthState, effect: PageEffect)

  function HandleSubmit(st: AuthState, f: RegisterForm, reply: AuthReply): (r: Submission)
    ensures FormError(f).Some? ==> r == Submission(None, st, ShowError(FormError(f).value))
    ensures FormError(f).None? ==> r.sent == Some(PayloadOf(f))
    ensures FormError(f).None? && reply.Accepted? ==> r.effect == Navigate("/dashboard") && r.state.isAuthenticated
    ensures FormError(f).None? && reply.Accepted? ==> r.state == st.(user := Some(reply.user), isAuthenticated := true)
    ensures FormError(f).None? && !reply.Accepted? ==> r.state == st && r.effect.ShowError?
    ensures FormError(f).None? && reply.Declined? ==>
      r.effect == ShowError(MessageOr(reply.message, "Registration failed"))
    ensures FormError(f).None? && reply.Errored? ==>
      r.effect == ShowError(MessageOr(reply.responseMessage, "Registration failed"))
  {
    match FormError(f)
    case Some(msg) => Submission(None, st, ShowError(msg))
    case None =>
      var (next, result) := Register(st, reply);
      var effect := if result.success then Navigate("/dashboard")
                    else ShowError(MessageOr(result.message, "Registration failed"));
      Submission(Some(PayloadOf(f)), next, effect)
  }

  /** A refusal or a failed request always shows a non-empty message. */
  lemma FailureMessageNeverEmpty(st: AuthState, f: RegisterForm, reply: AuthReply)
    requires FormError(f).None? && !reply.Accepted?
    ensures HandleSubmit(st, f, reply).effect.message != ""
  {
  }

  /** Mismatched passwords are reported even when the password is also too short. */
  lemma MismatchReportedFirst(st: AuthState, f: RegisterForm, reply: AuthReply)
    requires f.password != f.confirmPassword
    requires |f.password| < MinPasswordLength
    ensures HandleSubmit(st, f, reply).effect == ShowError("Passwords do not match")
    ensures HandleSubmit(st, f, reply).sent.None?
  {
  }
}

=== FILE: report_facts.dfy ===
/** How one checkout shows up in the reports read after it. */
module ReportFacts {
  import opened Wrappers
  import opened Calendar
  import opened Money
  import opened Inventory
  import opened SaleModel
  import opened Seqs
  import opened ReportWindows
  import opened LedgerReports
  import opened PosCheckout
  import opened CheckoutFacts
  import opened PosQueries
  import opened Reports

  function CartQuantityOf(l: CartLine): int {
    l.quantity
  }

  /** The line writes change stock only: every product keeps its presence and its price. */
  lemma {:induction false} ApplyStockKeepsPrices(products: map<ProductId, Product>, items: seq<ProcessedItem>)
    requires forall i :: 0 <= i < |items| ==>
      items[i].item.productId in products && items[i].product.price == products[items[i].item.productId].price
    ensures ApplyStock(products, items).Keys == products.Keys
    ensures forall k :: k in products ==> ApplyStock(products, items)[k].price == products[k].price
    decreases |items|
  {
    if |items| > 0 {
      var next := products[items[0].item.productId := Written(items[0])];
      assert next.Keys == products.Keys;
      ApplyStockKeepsPrices(next, items[1..]);
    }
  }

  /** The `out` movements the checkout writes bring in exactly the validated line totals. */
  lemma {:induction false} WrittenRevenue(products: map<ProductId, Product>, ms: seq<Movement>, items: seq<ProcessedItem>)
    requires |ms| == |items|
    requires forall i :: 0 <= i < |ms| ==>
      && IsOut(ms[i]) && ms[i].productId in products
      && LineTotal(products[ms[i].productId].price, ms[i].quantity) == LineAmountOf(items[i])
    ensures Revenue(products, ms) == SumReal(items, LineAmountOf)
  {
    if |ms| > 0 {
      WrittenRevenue(products, ms[1..], items[1..]);
    }
  }

  /**
   * Appending one priced `out` movement per line, all by the user inside the
   * window, to a ledger whose day report succeeds, under a catalog with the same
   * products and prices: the report gains exactly those movements, quantities
   * and line totals.
   */
  lemma DayGrowsByLines(products: map<ProductId, Product>, after: map<ProductId, Product>, ms: seq<Movement>,
                        added: seq<Movement>, items: seq<ProcessedItem>, lines: seq<CartLine>, user: UserId,
                        w: Window)
    requires AllPriced(products, CashierMovementsIn(ms, user, w))
    requires after.Keys == products.Keys
    requires forall k :: k in products ==> after[k].price == products[k].price
    requires |added| == |items| == |lines|
    requires forall i :: 0 <= i < |added| ==>
      && added[i].userId == user && InWindow(w, added[i].createdAt)
      && IsOut(added[i]) && added[i].productId in products && added[i].quantity == lines[i].quantity
      && LineTotal(after[added[i].productId].price, added[i].quantity) == LineAmountOf(items[i])
    ensures var before := DayReportOf(products, CashierMovementsIn(ms, user, w), w);
            var grown := DayReportOf(after, CashierMovementsIn(ms + added, user, w), w);
      && before.Success? && grown.Success?
      && grown.value.totalTransactions == before.value.totalTransactions + |lines|
      && grown.value.totalItems == before.value.totalItems + SumInt(lines, CartQuantityOf)
      && grown.value.totals.subtotal == before.value.totals.subtotal + SumReal(items, LineAmountOf)
  {
    var mine := (m: Movement) => m.userId == user && InWindow(w, m.createdAt);
    FilterAppend(ms, added, mine);
    FilterAll(added, mine);
    var old_ := CashierMovementsIn(ms, user, w);
    assert CashierMovementsIn(ms + added, user, w) == old_ + added;
    assert AllPriced(after, old_ + added) by {
      forall i | 0 <= i < |old_ + added|
        ensures Priced(after, (old_ + added)[i])
      {
        if i >= |old_| {
          assert (old_ + added)[i] == added[i - |old_|];
        } else {
          assert (old_ + added)[i] == old_[i];
          assert Priced(products, old_[i]);
        }
      }
    }
    SumIntAppend(old_, added, SoldQuantity);
    SumIntPointwise(added, SoldQuantity, lines, CartQuantityOf);
    RevenueAppend(after, old_, added);
    RevenueSamePrices(products, after, old_);
    WrittenRevenue(after, added, items);
  }

  /**
   * Writing validated lines (stock, then one `out` movement per line by `user` at
   * `now`): the cashier's daily report gains one movement per line, the line
   * quantities as items sold and the line totals as revenue.
   */
  lemma LinesFeedCashierDay(s: Store, items: seq<ProcessedItem>, lines: seq<CartLine>, note: string,
                            user: UserId, now: Time)
    requires DailyReport(s, user, now).Success?
    requires |items| == |lines|
    requires forall i :: 0 <= i < |items| ==>
      && lines[i].productId in s.products
      && items[i].item.productId == lines[i].productId
      && items[i].item.quantity == lines[i].quantity
      && items[i].product.price == s.products[lines[i].productId].price
      && LineAmountOf(items[i]) == LineTotal(s.products[lines[i].productId].price, lines[i].quantity)
    ensures var before := DailyReport(s, user, now).value;
            var after := DailyReport(WriteLines(s, items, note, user, now), user, now);
      && after.Success?
      && after.value.totalTransactions == before.totalTransactions + |lines|
      && after.value.totalItems == before.totalItems + SumInt(lines, CartQuantityOf)
      && after.value.totals.subtotal == before.totals.subtotal + SumReal(items, LineAmountOf)
  {
    ApplyStockKeepsPrices(s.products, items);
    DayGrowsByLines(s.products, ApplyStock(s.products, items), s.movements,
                    SaleMovements(items, note, user, now, s.nextId), items, lines, user, DayWindow(now));
  }

  /**
   * Once validation passed, the cashier's daily report read afterwards (at the
   * same moment) counts one more movement per line, the line quantities as items
   * sold and the line totals as revenue -- whether or not the sale itself was
   * then stored.
   */
  lemma CheckoutFeedsCashierDay(s: Store, req: CheckoutRequest, actor: Actor, now: Time)
    requires Validated(s, req)
    requires DailyReport(s, actor.id, now).Success?
    ensures var o := Checkout(s, req, actor, now);
            var before := DailyReport(s, actor.id, now).value;
            var after := DailyReport(o.store, actor.id, now);
            var lines := req.items.value;
      && after.Success?
      && after.value.totalTransactions == before.totalTransactions + |lines|
      && after.value.totalItems == before.totalItems + SumInt(lines, CartQuantityOf)
      && after.value.totals.subtotal
         == before.totals.subtotal + SumReal(ValidateLines(s.products, lines).value, LineAmountOf)
  {
    ValidatedLines(s, req);
    CheckoutCommits(s, req, actor, now);
    var items := ValidateLines(s.products, req.items.value).value;
    var note := NoteFor(req.notes, req.paymentMethod.value);
    CommitKeepsLineWrites(s, items, req.paymentMethod.value, req.notes, actor, now);
    LinesFeedCashierDay(s, items, req.items.value, note, actor.id, now);
  }

  /**
   * A mutation phase that stores its sale: the day's cashier report gains exactly
   * that sale, its units as items and its subtotal as revenue.
   */
  lemma CommitSaleInCashierDay(s: Store, items: seq<ProcessedItem>, lines: seq<CartLine>, pm: string,
                               notes: Option<string>, actor: Actor, now: Time)
    requires ParsePaymentMethod(pm).Some?
    requires DailyReport(s, actor.id, now).Success?
    requires |items| == |lines|
    requires forall i :: 0 <= i < |items| ==>
      && lines[i].productId in s.products
      && items[i].item.productId == lines[i].productId
      && items[i].item.quantity == lines[i].quantity
      && items[i].product.price == s.products[lines[i].productId].price
      && items[i].item.unitPrice == s.products[lines[i].productId].price
      && items[i].item.itemTotal == LineTotal(s.products[lines[i].productId].price, lines[i].quantity)
    ensures var o := Commit(s, items, pm, notes, actor, now);
            var before := DailyReport(s, actor.id, now).value;
            var after := DailyReport(o.store, actor.id, now);
      && o.response.Success? && |o.store.sales| == |s.sales| + 1
      && after.Success?
      && after.value.totalItems == before.totalItems + SaleQuantity(o.store.sales[|s.sales|])
      && after.value.totals.subtotal == before.totals.subtotal + o.store.sales[|s.sales|].subtotal
      && o.response.value.subtotal == o.store.sales[|s.sales|].subtotal
  {
    CommitCreatesSale(s, items, pm, notes, actor, now);
    CommitKeepsLineWrites(s, items, pm, notes, actor, now);
    LinesFeedCashierDay(s, items, lines, NoteFor(notes, pm), actor.id, now);
    var sale := Commit(s, items, pm, notes, actor, now).store.sales[|s.sales|];
    SumRealPointwise(items, LineAmountOf, sale.items, ItemTotalOf);
    SumIntPointwise(lines, CartQuantityOf, sale.items, ItemQuantityOf);
  }

  /**
   * After a successful checkout, the day's cashier report gains exactly the
   * stored sale: its units as items and its subtotal as revenue.
   */
  lemma CheckoutSaleInCashierDay(s: Store, req: CheckoutRequest, actor: Actor, now: Time)
    requires Checkout(s, req, actor, now).response.Success?
    requires DailyReport(s, actor.id, now).Success?
    ensures var o := Checkout(s, req, actor, now);
            var sale := o.store.sales[|s.sales|];
            var before := DailyReport(s, actor.id, now).value;
            var after := DailyReport(o.store, actor.id, now);
      && after.Success?
      && after.value.totalItems == before.totalItems + SaleQuantity(sale)
      && after.value.totals.subtotal == before.totals.subtotal + sale.subtotal
      && after.value.totals.subtotal == before.totals.subtotal + o.response.value.subtotal
  {
    CheckoutSucceedsIff(s, req, actor, now);
    CheckoutCommits(s, req, actor, now);
    ValidatedSaleInCashierDay(s, req, actor, now);
  }

  /** `CommitSaleInCashierDay` for the lines a passed validation produces. */
  lemma ValidatedSaleInCashierDay(s: Store, req: CheckoutRequest, actor: Actor, now: Time)
    requires Validated(s, req)
    requires ParsePaymentMethod(req.paymentMethod.value).Some?
    requires DailyReport(s, actor.id, now).Success?
    ensures ValidateLines(s.products, req.items.value).Success?
    ensures var o := Commit(s, ValidateLines(s.products, req.items.value).value, req.paymentMethod.value, req.notes,
                            actor, now);
            var before := DailyReport(s, actor.id, now).value;
            var after := DailyReport(o.store, actor.id, now);
      && o.response.Success? && |o.store.sales| == |s.sales| + 1
      && after.Success?
      && after.value.totalItems == before.totalItems + SaleQuantity(o.store.sales[|s.sales|])
      && after.value.totals.subtotal == before.totals.subtotal + o.store.sales[|s.sales|].subtotal
      && o.response.value.subtotal == o.store.sales[|s.sales|].subtotal
  {
    ValidatedLines(s, req);
    CommitSaleInCashierDay(s, ValidateLines(s.products, req.items.value).value, req.items.value,
                           req.paymentMethod.value, req.notes, actor, now);
  }

  /**
   * After a successful checkout at `now`, every sales summary whose window
   * contains `now` counts the new sale once more and adds its units and subtotal.
   */
  lemma CheckoutJoinsSalesSummary(s: Store, req: CheckoutRequest, actor: Actor, now: Time, w: Window)
    requires Checkout(s, req, actor, now).response.Success?
    requires InWindow(w, now)
    ensures var o := Checkout(s, req, actor, now);
            var sale := o.store.sales[|s.sales|];
            var before, after := Summarize(s.sales, w), Summarize(o.store.sales, w);
      && after.count == before.count + 1
      && after.totalItems == before.totalItems + SaleQuantity(sale)
      && after.totals.subtotal == before.totals.subtotal + o.response.value.subtotal
  {
    var o := Checkout(s, req, actor, now);
    CheckoutSaleRecord(s, req, actor, now);
    var sale := o.store.sales[|s.sales|];
    assert o.store.sales == s.sales + [sale];
    RecordedSaleJoinsSummary(s.sales, sale, w);
  }

  /**
   * When every movement of the day is one cashier's, the administrator's daily
   * report and that cashier's report coincide.
   */
  lemma {:induction false} SingleCashierDaysCoincide(ms: seq<Movement>, user: UserId, w: Window)
    requires forall i :: 0 <= i < |ms| && InWindow(w, ms[i].createdAt) ==> ms[i].userId == user
    ensures CashierMovementsIn(ms, user, w) == MovementsIn(ms, w)
  {
    if |ms| > 0 {
      SingleCashierDaysCoincide(ms[1..], user, w);
    }
  }
}

=== FILE: reports.dfy ===
/**
 * The administrator's reports: sales summaries over a month or a period window,
 * the low-stock / out-of-stock lists, the inventory status and the day's
 * movement report over all users.
 */
module Reports {
  import opened Wrappers
  import opened Calendar
  import opened Inventory
  import opened Money
  import opened Seqs
  import opened ReportWindows
  import opened SaleModel
  import opened LedgerReports
  import opened PosCheckout

  /**
   * A numeric query parameter read as `parseInt(x) || fallback`: an absent or
   * unparseable value (`None`) and a zero both give the fallback.
   */
  function OrDefault(v: Option<int>, fallback: int): (r: int)
    ensures (v.None? || v.value == 0) ==> r == fallback
    ensures v.Some? && v.value != 0 ==> r == v.value
  {
    if v.Some? && v.value != 0 then v.value else fallback
  }

  // ---------------------------------------------------------------- sales summaries

  /** Units over a sale's lines. */
  function SaleQuantity(s: Sale): int {
    SumInt(s.items, ItemQuantityOf)
  }

  /** Money over a sale's line totals. */
  function SaleAmount(s: Sale): real {
    SumReal(s.items, ItemTotalOf)
  }

  function SaleSubtotalOf(s: Sale): real {
    s.subtotal
  }

  function SaleTotalOf(s: Sale): real {
    s.total
  }

  /** The sales dated inside the window, in store order. */
  function SalesIn(sales: seq<Sale>, w: Window): (r: seq<Sale>)
    ensures forall i :: 0 <= i < |r| ==> InWindow(w, r[i].date) && r[i] in sales
    ensures forall i :: 0 <= i < |sales| && InWindow(w, sales[i].date) ==> sales[i] in r
  {
    Filter(sales, (s: Sale) => InWindow(w, s.date))
  }

  datatype SalesSummary = SalesSummary(count: nat, totalItems: int, totals: Totals, sales: seq<Sale>)

  /**
   * Every line of every sale in the window adds its quantity to the items and its
   * line total to the subtotal; tax and total are recomputed from the subtotal.
   */
  function Summarize(sales: seq<Sale>, w: Window): (r: SalesSummary)
    ensures r.sales == SalesIn(sales, w)
    ensures r.count == |r.sales|
    ensures r.totals.tax * 50.0 == r.totals.subtotal
    ensures r.totals.total == r.totals.subtotal + r.totals.tax
  {
    var selected := SalesIn(sales, w);
    SalesSummary(|selected|, SumInt(selected, SaleQuantity), TotalsOf(SumReal(selected, SaleAmount)), selected)
  }

  datatype MonthlyReport = MonthlyReport(month: int, year: int, summary: SalesSummary)

  /**
   * The monthly report: month (1-12) and year default to those of `now`; the
   * window runs from the first of that month to the first of the next.
   */
  function MonthlyReportOf(sales: seq<Sale>, month: Option<int>, year: Option<int>, now: LocalDateTime)
    : (r: MonthlyReport)
    ensures r.month == OrDefault(month, now.month)
    ensures r.year == OrDefault(year, now.year)
    ensures r.summary == Summarize(sales, MonthWindow(r.year, r.month - 1))
  {
    var m := OrDefault(month, now.month);
    var y := OrDefault(year, now.year);
    MonthlyReport(m, y, Summarize(sales, MonthWindow(y, m - 1)))
  }

  datatype PeriodReport = PeriodReport(period: Period, window: Window, summary: SalesSummary)

  /** An unknown `period` is refused with a 400 before any query. */
  datatype ReportError = InvalidPeriod(period: string)

  function ReportStatus(e: ReportError): int {
    400
  }

  /** Sales by period around `date`, or around `now` when no date is given. */
  function SalesByPeriod(sales: seq<Sale>, period: Option<string>, date: Option<LocalDateTime>, now: LocalDateTime)
    : (r: Result<PeriodReport, ReportError>)
    requires ValidDateTime(now)
    requires date.Some? ==> ValidDateTime(date.value)
    ensures r.Failure? <==> period.Some? && period.value !in {"daily", "weekly", "monthly"}
    ensures r.Failure? ==> r.error == InvalidPeriod(period.value)
    ensures r.Success? ==>
      && r.value.period == ParsePeriod(period).value
      && r.value.window == PeriodWindow(r.value.period, date.GetOr(now))
      && r.value.summary == Summarize(sales, r.value.window)
  {
    match ParsePeriod(period)
    case None => Failure(InvalidPeriod(period.value))
    case Some(p) =>
      var w := PeriodWindow(p, date.GetOr(now));
      Success(PeriodReport(p, w, Summarize(sales, w)))
  }

  // ---------------------------------------------------------------- summary lemmas

  /** The line totals of a consistent sale add up to its stored subtotal. */
  lemma ConsistentSaleAmount(s: Sale)
    requires Consistent(s)
    ensures SaleAmount(s) == s.subtotal
  {
  }

  /** Over consistent sales, stored totals are the stored subtotals at the flat rate. */
  lemma {:induction false} ConsistentTotalsSum(sales: seq<Sale>)
    requires forall i :: 0 <= i < |sales| ==> Consistent(sales[i])
    ensures SumReal(sales, SaleAmount) == SumReal(sales, SaleSubtotalOf)
    ensures SumReal(sales, SaleTotalOf) == TotalsOf(SumReal(sales, SaleSubtotalOf)).total
  {
    if |sales| > 0 {
      ConsistentTotalsSum(sales[1..]);
      ConsistentSaleAmount(sales[0]);
      TotalsAdditive(sales[0].subtotal, SumReal(sales[1..], SaleSubtotalOf));
    }
  }

  /**
   * For sales recorded by the checkout, the recomputed summary agrees with the
   * stored figures: its subtotal and total are the sums of the sales' own.
   */
  lemma SummaryOfConsistentSales(sales: seq<Sale>, w: Window)
    requires forall i :: 0 <= i < |sales| ==> Consistent(sales[i])
    ensures var r := Summarize(sales, w);
      && r.totals.subtotal == SumReal(r.sales, SaleSubtotalOf)
      && r.totals.total == SumReal(r.sales, SaleTotalOf)
  {
    var r := Summarize(sales, w);
    ConsistentTotalsSum(r.sales);
  }

  /** Selecting from a non-empty list decides its head, then selects from the rest. */
  lemma SalesInStep(sales: seq<Sale>, w: Window)
    requires |sales| > 0
    ensures SalesIn(sales, w)
            == (if InWindow(w, sales[0].date) then [sales[0]] + SalesIn(sales[1..], w) else SalesIn(sales[1..], w))
  {
  }

  /** Any per-sale figure summed over a window split in two is the sum over the parts. */
  lemma {:induction false} AdjacentWindowsSumInt(sales: seq<Sale>, a: Time, b: Time, c: Time, f: Sale -> int)
    requires a <= b <= c
    ensures SumInt(SalesIn(sales, Window(a, c)), f)
            == SumInt(SalesIn(sales, Window(a, b)), f) + SumInt(SalesIn(sales, Window(b, c)), f)
  {
    if |sales| > 0 {
      AdjacentWindowsSumInt(sales[1..], a, b, c, f);
      SalesInStep(sales, Window(a, b));
      SalesInStep(sales, Window(b, c));
      SalesInStep(sales, Window(a, c));
      assert forall t: seq<Sale> :: ([sales[0]] + t)[1..] == t;
    }
  }

  lemma {:induction false} AdjacentWindowsSumReal(sales: seq<Sale>, a: Time, b: Time, c: Time, f: Sale -> real)
    requires a <= b <= c
    ensures SumReal(SalesIn(sales, Window(a, c)), f)
            == SumReal(SalesIn(sales, Window(a, b)), f) + SumReal(SalesIn(sales, Window(b, c)), f)
  {
    if |sales| > 0 {
      AdjacentWindowsSumReal(sales[1..], a, b, c, f);
      SalesInStep(sales, Window(a, b));
      SalesInStep(sales, Window(b, c));
      SalesInStep(sales, Window(a, c));
      assert forall t: seq<Sale> :: ([sales[0]] + t)[1..] == t;
    }
  }

  lemma {:induction false} AdjacentWindowsCount(sales: seq<Sale>, a: Time, b: Time, c: Time)
    requires a <= b <= c
    ensures |SalesIn(sales, Window(a, c))| == |SalesIn(sales, Window(a, b))| + |SalesIn(sales, Window(b, c))|
  {
    if |sales| > 0 {
      AdjacentWindowsCount(sales[1..], a, b, c);
      SalesInStep(sales, Window(a, b));
      SalesInStep(sales, Window(b, c));
      SalesInStep(sales, Window(a, c));
    }
  }

  /** Two adjacent windows together count, sell and earn what their union does. */
  lemma AdjacentWindowsAdd(sales: seq<Sale>, a: Time, b: Time, c: Time)
    requires a <= b <= c
    ensures var x, y, u := Summarize(sales, Window(a, b)), Summarize(sales, Window(b, c)), Summarize(sales, Window(a, c));
      && u.count == x.count + y.count
      && u.totalItems == x.totalItems + y.totalItems
      && u.totals.subtotal == x.totals.subtotal + y.totals.subtotal
  {
    AdjacentWindowsCount(sales, a, b, c);
    AdjacentWindowsSumInt(sales, a, b, c, SaleQuantity);
    AdjacentWindowsSumReal(sales, a, b, c, SaleAmount);
  }

  /** Every line item of the sales, sale after sale: the order the nested loops visit them in. */
  function ItemsOf(sales: seq<Sale>): (items: seq<SaleItem>)
    ensures forall i, j :: 0 <= i < |sales| && 0 <= j < |sales[i].items| ==> sales[i].items[j] in items
  {
    if |sales| == 0 then []
    else
      var rest := ItemsOf(sales[1..]);
      assert forall i :: 1 <= i < |sales| ==> sales[i] == sales[1..][i - 1];
      sales[0].items + rest
  }

  /** Summing per sale and then across sales gives the same figures as one pass over all line items. */
  lemma {:induction false} PerSaleSumsAreItemSums(sales: seq<Sale>)
    ensures SumInt(sales, SaleQuantity) == SumInt(ItemsOf(sales), ItemQuantityOf)
    ensures SumReal(sales, SaleAmount) == SumReal(ItemsOf(sales), ItemTotalOf)
  {
    if |sales| > 0 {
      PerSaleSumsAreItemSums(sales[1..]);
      SumIntAppend(sales[0].items, ItemsOf(sales[1..]), ItemQuantityOf);
      SumRealAppend(sales[0].items, ItemsOf(sales[1..]), ItemTotalOf);
    }
  }

  /**
   * A summary's units and subtotal are the sums of `quantity` and `itemTotal`
   * over every line item of every sale inside the window.
   */
  lemma SummaryIsItemSums(sales: seq<Sale>, w: Window)
    ensures var r := Summarize(sales, w);
      && r.totalItems == SumInt(ItemsOf(SalesIn(sales, w)), ItemQuantityOf)
      && r.totals.subtotal == SumReal(ItemsOf(SalesIn(sales, w)), ItemTotalOf)
  {
    PerSaleSumsAreItemSums(SalesIn(sales, w));
  }

  /** A new sale dated inside the window joins the summary and adds its own figures to it. */
  lemma RecordedSaleJoinsSummary(sales: seq<Sale>, sale: Sale, w: Window)
    requires InWindow(w, sale.date)
    requires Consistent(sale)
    ensures var before, after := Summarize(sales, w), Summarize(sales + [sale], w);
      && after.sales == before.sales + [sale]
      && after.count == before.count + 1
      && after.totalItems == before.totalItems + SaleQuantity(sale)
      && after.totals.subtotal == before.totals.subtotal + sale.subtotal
  {
    var p := (s: Sale) => InWindow(w, s.date);
    FilterAppend(sales, [sale], p);
    assert Filter([sale], p) == [sale];
    var selected := SalesIn(sales, w);
    SumIntAppend(selected, [sale], SaleQuantity);
    SumRealAppend(selected, [sale], SaleAmount);
  }

  // ---------------------------------------------------------------- stock

  datatype StockReport = StockReport(
    threshold: int,
    lowStockCount: nat,
    outOfStockCount: nat,
    lowStock: seq<Product>,
    outOfStock: seq<Product>)

  /**
   * Low stock is `0 < quantity <= threshold` (threshold 5 unless given and
   * non-zero), out of stock is `quantity == 0`, each in catalog order.
   */
  function StockReportOf(catalog: seq<Product>, threshold: Option<int>): (r: StockReport)
    ensures r.threshold == OrDefault(threshold, 5)
    ensures r.lowStockCount == |r.lowStock| && r.outOfStockCount == |r.outOfStock|
    ensures forall i :: 0 <= i < |r.lowStock| ==>
      r.lowStock[i] in catalog && 0 < r.lowStock[i].quantity <= r.threshold
    ensures forall i :: 0 <= i < |catalog| && 0 < catalog[i].quantity <= r.threshold ==> catalog[i] in r.lowStock
    ensures forall i :: 0 <= i < |r.outOfStock| ==> r.outOfStock[i] in catalog && r.outOfStock[i].quantity == 0
    ensures forall i :: 0 <= i < |catalog| && catalog[i].quantity == 0 ==> catalog[i] in r.outOfStock
    ensures forall i, j :: 0 <= i < |r.lowStock| && 0 <= j < |r.outOfStock| ==> r.lowStock[i] != r.outOfStock[j]
    ensures forall p: Product :: multiset(r.lowStock)[p] == if 0 < p.quantity <= r.threshold then multiset(catalog)[p] else 0
    ensures forall p: Product :: multiset(r.outOfStock)[p] == if p.quantity == 0 then multiset(catalog)[p] else 0
  {
    var t := OrDefault(threshold, 5);
    var isLow := (p: Product) => 0 < p.quantity <= t;
    var isOut := (p: Product) => p.quantity == 0;
    var low := Filter(catalog, isLow);
    var out := Filter(catalog, isOut);
    FilterCounts(catalog, isLow);
    FilterCounts(catalog, isOut);
    StockReport(t, |low|, |out|, low, out)
  }

  datatype InventoryStatus = InventoryStatus(count: nat, products: seq<Product>)

  /** Every catalog product, with their number. */
  function InventoryStatusOf(catalog: seq<Product>): (r: InventoryStatus)
    ensures r.products == catalog
    ensures r.count == |catalog|
  {
    InventoryStatus(|catalog|, catalog)
  }

  // ---------------------------------------------------------------- day of movements

  /** All users' movements created inside the window, in ledger order. */
  function MovementsIn(ms: seq<Movement>, w: Window): (r: seq<Movement>)
    ensures forall i :: 0 <= i < |r| ==> InWindow(w, r[i].createdAt) && r[i] in ms
    ensures forall i :: 0 <= i < |ms| && InWindow(w, ms[i].createdAt) ==> ms[i] in r
    ensures forall m: Movement :: multiset(r)[m] == if InWindow(w, m.createdAt) then multiset(ms)[m] else 0
  {
    var inDay := (m: Movement) => InWindow(w, m.createdAt);
    FilterCounts(ms, inDay);
    Filter(ms, inDay)
  }

  /** The day's movement report over every user. */
  function AdminDailyReport(s: Store, now: Time): (r: Result<DayReport, LedgerError>)
    ensures var w := DayWindow(now);
      && (r.Success? <==> AllPriced(s.products, MovementsIn(s.movements, w)))
      && (r.Success? ==> r.value.window == w && r.value.totalTransactions == |MovementsIn(s.movements, w)|)
      && (r.Success? ==> r.value.totalItems == SumInt(Filter(MovementsIn(s.movements, w), IsOut), QuantityOf))
      && (r.Success? ==> r.value.totals == TotalsOf(SumReal(Filter(MovementsIn(s.movements, w), IsOut), AmountAt(s.products))))
  {
    var w := DayWindow(now);
    DayReportOf(s.products, MovementsIn(s.movements, w), w)
  }
}

=== FILE: safe_checkout.dfy ===
/**
 * The checkout with its three validation gaps closed: the payment method is checked against the sale schema's enumeration
 * before anything is written, every line quantity must be positive, and each line
 * is checked against the stock left over by the earlier lines of the same cart.
 * The write phase is the unchanged one of the backend.
 */
module SafeCheckout {
  import opened Wrappers
  import opened Calendar
  import opened Money
  import opened Inventory
  import opened SaleModel
  import opened PosCheckout
  import opened CheckoutFacts

  /**
   * Validation against a staged catalog: each accepted line's decrement is applied
   * before the next line is checked.
   */
  function StagedValidate(products: map<ProductId, Product>, lines: seq<CartLine>)
    : Result<seq<ProcessedItem>, CheckoutError>
    decreases |lines|
  {
    if |lines| == 0 then Success([])
    else if lines[0].quantity <= 0 then Failure(InvalidQuantity(lines[0].productId, lines[0].quantity))
    else
      var head := CheckLine(products, lines[0]);
      if head.Failure? then Failure(head.error)
      else
        var rest := StagedValidate(products[lines[0].productId := Written(head.value)], lines[1..]);
        if rest.Failure? then rest else Success([head.value] + rest.value)
  }

  /** The checkout with the validation gaps closed; every refusal leaves the store as it was. */
  function CheckoutCorrected(s: Store, req: CheckoutRequest, actor: Actor, now: Time): (o: CheckoutOutcome)
    ensures o.response.Failure? ==> o.store == s
    ensures CartEmpty(req) ==> o.response == Failure(EmptyCart)
    ensures !CartEmpty(req) && MethodMissing(req) ==> o.response == Failure(PaymentMethodRequired)
    ensures o.response.Success? ==> ParsePaymentMethod(req.paymentMethod.value).Some?
  {
    if CartEmpty(req) then CheckoutOutcome(s, Failure(EmptyCart))
    else if MethodMissing(req) then CheckoutOutcome(s, Failure(PaymentMethodRequired))
    else if ParsePaymentMethod(req.paymentMethod.value).None? then
      CheckoutOutcome(s, Failure(InvalidPaymentMethod(req.paymentMethod.value)))
    else
      var v := StagedValidate(s.products, req.items.value);
      if v.Failure? then CheckoutOutcome(s, Failure(v.error))
      else
        var items := v.value;
        StagedPriced(s.products, req.items.value);
        CommitCreatesSale(s, items, req.paymentMethod.value, req.notes, actor, now);
        Commit(s, items, req.paymentMethod.value, req.notes, actor, now)
  }

  /** Units of product `k` the cart asks for, over all its lines. */
  function Demand(lines: seq<CartLine>, k: ProductId): int {
    if |lines| == 0 then 0
    else (if lines[0].productId == k then lines[0].quantity else 0) + Demand(lines[1..], k)
  }

  /** Staged validation yields one priced line per cart line, for the same product and quantity. */
  lemma {:induction false} StagedPriced(products: map<ProductId, Product>, lines: seq<CartLine>)
    requires StagedValidate(products, lines).Success?
    ensures var items := StagedValidate(products, lines).value;
      && |items| == |lines|
      && forall i :: 0 <= i < |lines| ==>
           && PricedLine(items[i])
           && items[i].item.productId == lines[i].productId
           && items[i].item.quantity == lines[i].quantity
           && lines[i].quantity > 0
    decreases |lines|
  {
    if |lines| > 0 {
      var head := CheckLine(products, lines[0]);
      StagedPriced(products[lines[0].productId := Written(head.value)], lines[1..]);
    }
  }

  /**
   * Writing the staged lines takes exactly the cart's total demand of each product
   * off its stock, leaves every other field as it was, and leaves no product the
   * cart names with negative stock.
   */
  lemma {:induction false} StagedStockEffect(products: map<ProductId, Product>, lines: seq<CartLine>)
    requires StagedValidate(products, lines).Success?
    ensures var after := ApplyStock(products, StagedValidate(products, lines).value);
      && after.Keys == products.Keys
      && (forall k :: k in products ==>
            after[k] == products[k].(quantity := products[k].quantity - Demand(lines, k)))
      && (forall k :: k in products && InCart(lines, k) ==> after[k].quantity >= 0)
    decreases |lines|
  {
    if |lines| > 0 {
      var head := CheckLine(products, lines[0]).value;
      var id := lines[0].productId;
      var staged := products[id := Written(head)];
      StagedStockEffect(staged, lines[1..]);
      var after := ApplyStock(products, StagedValidate(products, lines).value);
      assert after == ApplyStock(staged, StagedValidate(staged, lines[1..]).value);
      forall k | k in products && InCart(lines, k)
        ensures after[k].quantity >= 0
      {
        if !InCart(lines[1..], k) {
          assert k == id;
          assert Demand(lines[1..], k) == 0 by { DemandOutside(lines[1..], k); }
        }
      }
    }
  }

  /** A product no line names is demanded zero times. */
  lemma {:induction false} DemandOutside(lines: seq<CartLine>, k: ProductId)
    requires !InCart(lines, k)
    ensures Demand(lines, k) == 0
    decreases |lines|
  {
    if |lines| > 0 {
      DemandOutside(lines[1..], k);
    }
  }

  /**
   * A corrected checkout that succeeds takes every product's total demand off its
   * stock and never leaves a product it sold with negative stock.
   */
  lemma CorrectedStockEffect(s: Store, req: CheckoutRequest, actor: Actor, now: Time)
    requires CheckoutCorrected(s, req, actor, now).response.Success?
    ensures !CartEmpty(req)
    ensures var after := CheckoutCorrected(s, req, actor, now).store.products;
      && after.Keys == s.products.Keys
      && (forall k :: k in s.products ==>
            after[k] == s.products[k].(quantity := s.products[k].quantity - Demand(req.items.value, k)))
      && (forall k :: k in s.products && InCart(req.items.value, k) ==> after[k].quantity >= 0)
      && (forall i :: 0 <= i < |req.items.value| ==> req.items.value[i].quantity > 0)
  {
    var items := StagedValidate(s.products, req.items.value).value;
    StagedPriced(s.products, req.items.value);
    CommitKeepsLineWrites(s, items, req.paymentMethod.value, req.notes, actor, now);
    StagedStockEffect(s.products, req.items.value);
  }

  /** Two catalogs hold the same thing (or nothing) under key `k`. */
  predicate AgreeOn(a: map<ProductId, Product>, b: map<ProductId, Product>, k: ProductId) {
    (k in a <==> k in b) && (k in a ==> a[k] == b[k])
  }

  lemma {:induction false} StagedMatchesPlain(staged: map<ProductId, Product>, products: map<ProductId, Product>,
                                              lines: seq<CartLine>)
    requires DistinctProducts(lines)
    requires forall i :: 0 <= i < |lines| ==> lines[i].quantity > 0
    requires forall i :: 0 <= i < |lines| ==> AgreeOn(staged, products, lines[i].productId)
    ensures StagedValidate(staged, lines) == ValidateLines(products, lines)
    decreases |lines|
  {
    if |lines| > 0 {
      var head := CheckLine(staged, lines[0]);
      assert head == CheckLine(products, lines[0]);
      if head.Success? {
        var next := staged[lines[0].productId := Written(head.value)];
        forall i | 0 <= i < |lines[1..]|
          ensures AgreeOn(next, products, lines[1..][i].productId)
        {
          assert lines[1..][i] == lines[i + 1];
          assert lines[i + 1].productId != lines[0].productId;
        }
        StagedMatchesPlain(next, products, lines[1..]);
      }
    }
  }

  /**
   * On a cart of distinct products with positive quantities and a known payment
   * method the backend already behaves as intended: both checkouts agree exactly.
   */
  lemma CorrectedAgreesOnWellFormedCarts(s: Store, req: CheckoutRequest, actor: Actor, now: Time)
    requires !CartEmpty(req)
    requires req.paymentMethod.Some? && ParsePaymentMethod(req.paymentMethod.value).Some?
    requires DistinctProducts(req.items.value)
    requires forall i :: 0 <= i < |req.items.value| ==> req.items.value[i].quantity > 0
    ensures CheckoutCorrected(s, req, actor, now) == Checkout(s, req, actor, now)
  {
    StagedMatchesPlain(s.products, s.products, req.items.value);
  }
}

=== FILE: sale.dfy ===
/**
 * The sale record and its schema rules: required fields, the payment-method
 * enumeration with its default, the trimmed notes and the creation-time default date.
 */
module SaleModel {
  import opened Wrappers
  import opened Text
  import opened Calendar
  import opened Inventory
  import opened Money

  datatype PaymentMethod = Cash | Card | OtherMethod

  /** The stored spelling of each payment method. */
  function MethodName(p: PaymentMethod): string {
    match p
    case Cash => "cash"
    case Card => "card"
    case OtherMethod => "other"
  }

  /** The enumeration check: only the three stored spellings are accepted. */
  function ParsePaymentMethod(s: string): (r: Option<PaymentMethod>)
    ensures r.Some? <==> (s == "cash" || s == "card" || s == "other")
    ensures r.Some? ==> MethodName(r.value) == s
  {
    if s == "cash" then Some(Cash)
    else if s == "card" then Some(Card)
    else if s == "other" then Some(OtherMethod)
    else None
  }

  /** Every payment method is stored under a spelling that reads back as itself. */
  lemma MethodNameRoundTrip(p: PaymentMethod)
    ensures ParsePaymentMethod(MethodName(p)) == Some(p)
  {
  }

  /** A line of a stored sale: snapshot of the product at sale time. */
  datatype SaleItem = SaleItem(
    productId: ProductId,
    productName: Option<string>,
    quantity: int,
    unitPrice: real,
    itemTotal: real)

  /** A stored sale. */
  datatype Sale = Sale(
    id: RecordId,
    items: seq<SaleItem>,
    subtotal: real,
    tax: real,
    total: real,
    paymentMethod: PaymentMethod,
    cashier: UserId,
    transactionIds: seq<RecordId>,
    notes: Option<string>,
    date: Time)

  function ItemTotalOf(it: SaleItem): real {
    it.itemTotal
  }

  function ItemQuantityOf(it: SaleItem): int {
    it.quantity
  }

  /**
   * The internal consistency every checkout sale has: line totals are price times
   * quantity, the subtotal is their sum, tax and total follow from it at the flat
   * rate, and there is one movement id per line.
   */
  predicate Consistent(sale: Sale) {
    && (forall i :: 0 <= i < |sale.items| ==>
          sale.items[i].itemTotal == LineTotal(sale.items[i].unitPrice, sale.items[i].quantity))
    && sale.subtotal == SumReal(sale.items, ItemTotalOf)
    && Totals(sale.subtotal, sale.tax, sale.total) == TotalsOf(sale.subtotal)
    && |sale.transactionIds| == |sale.items|
  }

  /** The fields of a sale item as handed to the store; any of them may be absent. */
  datatype SaleItemFields = SaleItemFields(
    productId: Option<ProductId>,
    productName: Option<string>,
    quantity: Option<int>,
    unitPrice: Option<real>,
    itemTotal: Option<real>)

  /** The fields of a sale as handed to the store; the payment method is still free text. */
  datatype SaleFields = SaleFields(
    items: seq<SaleItemFields>,
    subtotal: Option<real>,
    tax: Option<real>,
    total: Option<real>,
    paymentMethod: Option<string>,
    cashier: Option<UserId>,
    transactionIds: seq<RecordId>,
    notes: Option<string>,
    date: Option<Time>)

  /** Why the store refused to create a sale. */
  datatype SchemaError =
    | ItemFieldRequired(index: nat, field: string)
    | FieldRequired(field: string)
    | NotInEnum(field: string, value: string)

  /** All required item fields are present; the product name is optional. */
  predicate ItemComplete(f: SaleItemFields) {
    f.productId.Some? && f.quantity.Some? && f.unitPrice.Some? && f.itemTotal.Some?
  }

  /** The schema accepts the fields: every item complete, totals and cashier present, a known payment method if any. */
  predicate SaleAcceptable(f: SaleFields) {
    && (forall i :: 0 <= i < |f.items| ==> ItemComplete(f.items[i]))
    && f.subtotal.Some? && f.tax.Some? && f.total.Some? && f.cashier.Some?
    && (f.paymentMethod.None? || ParsePaymentMethod(f.paymentMethod.value).Some?)
  }

  function ItemErrors(f: SaleItemFields, index: nat): seq<SchemaError> {
    (if f.productId.None? then [ItemFieldRequired(index, "productId")] else [])
    + (if f.quantity.None? then [ItemFieldRequired(index, "quantity")] else [])
    + (if f.unitPrice.None? then [ItemFieldRequired(index, "unitPrice")] else [])
    + (if f.itemTotal.None? then [ItemFieldRequired(index, "itemTotal")] else [])
  }

  function ItemsErrors(items: seq<SaleItemFields>, from: nat): (errs: seq<SchemaError>)
    ensures |errs| == 0 <==> forall i :: 0 <= i < |items| ==> ItemComplete(items[i])
  {
    if |items| == 0 then [] else ItemErrors(items[0], from) + ItemsErrors(items[1..], from + 1)
  }

  /** Every schema violation of a sale, items first. */
  function SchemaErrors(f: SaleFields): (errs: seq<SchemaError>)
    ensures |errs| == 0 <==> SaleAcceptable(f)
    ensures f.paymentMethod.Some? && ParsePaymentMethod(f.paymentMethod.value).None?
            ==> NotInEnum("paymentMethod", f.paymentMethod.value) in errs
  {
    ItemsErrors(f.items, 0)
    + (if f.subtotal.None? then [FieldRequired("subtotal")] else [])
    + (if f.tax.None? then [FieldRequired("tax")] else [])
    + (if f.total.None? then [FieldRequired("total")] else [])
    + (if f.cashier.None? then [FieldRequired("cashier")] else [])
    + (if f.paymentMethod.Some? && ParsePaymentMethod(f.paymentMethod.value).None?
       then [NotInEnum("paymentMethod", f.paymentMethod.value)] else [])
  }

  function ItemOf(f: SaleItemFields): SaleItem
    requires ItemComplete(f)
  {
    SaleItem(f.productId.value, f.productName, f.quantity.value, f.unitPrice.value, f.itemTotal.value)
  }

  /**
   * Creating a sale: refused with every schema violation, or stored with the
   * payment method defaulting to cash, the date defaulting to `now` and the notes trimmed.
   */
  function CreateSale(f: SaleFields, id: RecordId, now: Time): (r: Result<Sale, seq<SchemaError>>)
    ensures r.Success? <==> SaleAcceptable(f)
    ensures r.Failure? ==> |r.error| > 0 && r.error == SchemaErrors(f)
    ensures r.Success? ==>
      && r.value.id == id
      && |r.value.items| == |f.items|
      && (forall i :: 0 <= i < |f.items| ==>
            && r.value.items[i].productId == f.items[i].productId.value
            && r.value.items[i].productName == f.items[i].productName
            && r.value.items[i].quantity == f.items[i].quantity.value
            && r.value.items[i].unitPrice == f.items[i].unitPrice.value
            && r.value.items[i].itemTotal == f.items[i].itemTotal.value)
      && r.value.subtotal == f.subtotal.value
      && r.value.tax == f.tax.value
      && r.value.total == f.total.value
      && r.value.cashier == f.cashier.value
      && r.value.transactionIds == f.transactionIds
      && (f.paymentMethod.None? ==> r.value.paymentMethod == Cash)
      && (f.paymentMethod.Some? ==> MethodName(r.value.paymentMethod) == f.paymentMethod.value)
      && (f.notes.None? ==> r.value.notes.None?)
      && (f.notes.Some? ==> r.value.notes == Some(Trim(f.notes.value)))
      && (f.date.None? ==> r.value.date == now)
      && (f.date.Some? ==> r.value.date == f.date.value)
  {
    var errs := SchemaErrors(f);
    if |errs| > 0 then Failure(errs)
    else
      Success(Sale(
        id,
        seq(|f.items|, i requires 0 <= i < |f.items| && ItemComplete(f.items[i]) => ItemOf(f.items[i])),
        f.subtotal.value,
        f.tax.value,
        f.total.value,
        if f.paymentMethod.None? then Cash else ParsePaymentMethod(f.paymentMethod.value).value,
        f.cashier.value,
        f.transactionIds,
        if f.notes.None? then None else Some(Trim(f.notes.value)),
        f.date.GetOr(now)))
  }
}

=== FILE: seqs.dfy ===
/** Order-preserving filtering, the shape of every query the reports run. */
module Seqs {

  /** The elements of `s` that satisfy `p`, in their original order. */
  function Filter<T>(s: seq<T>, p: T -> bool): (r: seq<T>)
    ensures |r| <= |s|
    ensures forall i :: 0 <= i < |r| ==> p(r[i])
    ensures forall i :: 0 <= i < |r| ==> r[i] in s
    ensures forall i :: 0 <= i < |s| && p(s[i]) ==> s[i] in r
  {
    if |s| == 0 then []
    else if p(s[0]) then [s[0]] + Filter(s[1..], p)
    else Filter(s[1..], p)
  }

  /** Filtering a concatenation filters each part. */
  lemma {:induction false} FilterAppend<T>(a: seq<T>, b: seq<T>, p: T -> bool)
    ensures Filter(a + b, p) == Filter(a, p) + Filter(b, p)
  {
    if |a| == 0 {
      assert a + b == b;
    } else {
      assert (a + b)[1..] == a[1..] + b;
      FilterAppend(a[1..], b, p);
    }
  }

  /** Filtering keeps each qualifying element as often as it occurs, and nothing else. */
  lemma {:induction false} FilterCounts<T>(s: seq<T>, p: T -> bool)
    ensures forall x :: multiset(Filter(s, p))[x] == if p(x) then multiset(s)[x] else 0
  {
    if |s| > 0 {
      FilterCounts(s[1..], p);
      assert s == [s[0]] + s[1..];
      assert multiset(s) == multiset{s[0]} + multiset(s[1..]);
    }
  }

  /** Filtering keeps everything when everything qualifies. */
  lemma {:induction false} FilterAll<T>(s: seq<T>, p: T -> bool)
    requires forall i :: 0 <= i < |s| ==> p(s[i])
    ensures Filter(s, p) == s
  {
    if |s| > 0 {
      FilterAll(s[1..], p);
    }
  }

  /** Filtering drops everything when nothing qualifies. */
  lemma {:induction false} FilterNone<T>(s: seq<T>, p: T -> bool)
    requires forall i :: 0 <= i < |s| ==> !p(s[i])
    ensures Filter(s, p) == []
  {
    if |s| > 0 {
      FilterNone(s[1..], p);
    }
  }

  /** Filtering twice with two conditions is filtering once with both. */
  lemma {:induction false} FilterFilter<T>(s: seq<T>, p: T -> bool, q: T -> bool, pq: T -> bool)
    requires forall x :: pq(x) == (p(x) && q(x))
    ensures Filter(Filter(s, p), q) == Filter(s, pq)
  {
    if |s| > 0 {
      FilterFilter(s[1..], p, q, pq);
    }
  }
}

=== FILE: text.dfy ===
/** The JavaScript string operations the model relies on: `trim`, `toLowerCase`, `includes`. */
module Text {

  /** ECMAScript WhiteSpace and LineTerminator code points, the characters `trim` removes. */
  predicate IsJsWhitespace(c: char) {
    || c == ' ' || c == '\t' || c == '\n' || c == '\r'
    || c == '\U{B}' || c == '\U{C}' || c == '\U{A0}' || c == '\U{1680}'
    || ('\U{2000}' <= c <= '\U{200A}')
    || c == '\U{2028}' || c == '\U{2029}' || c == '\U{202F}' || c == '\U{205F}'
    || c == '\U{3000}' || c == '\U{FEFF}'
  }

  /** `s` with its leading whitespace removed. */
  function TrimStart(s: string): (r: string)
    ensures |r| <= |s| && r == s[|s| - |r|..]
    ensures forall i :: 0 <= i < |s| - |r| ==> IsJsWhitespace(s[i])
    ensures |r| > 0 ==> !IsJsWhitespace(r[0])
  {
    if |s| > 0 && IsJsWhitespace(s[0]) then TrimStart(s[1..]) else s
  }

  /** `s` with its trailing whitespace removed. */
  function TrimEnd(s: string): (r: string)
    ensures |r| <= |s| && r == s[..|r|]
    ensures forall i :: |r| <= i < |s| ==> IsJsWhitespace(s[i])
    ensures |r| > 0 ==> !IsJsWhitespace(r[|r| - 1])
  {
    if |s| > 0 && IsJsWhitespace(s[|s| - 1]) then TrimEnd(s[..|s| - 1]) else s
  }

  /** `String.prototype.trim`. */
  function Trim(s: string): string {
    TrimEnd(TrimStart(s))
  }

  /** A string trims to the empty string exactly when it consists of whitespace only. */
  lemma TrimEmptyIff(s: string)
    ensures Trim(s) == "" <==> forall i :: 0 <= i < |s| ==> IsJsWhitespace(s[i])
  {
    var t := TrimStart(s);
    if forall i :: 0 <= i < |s| ==> IsJsWhitespace(s[i]) {
      assert |t| == 0;
    } else {
      var k :| 0 <= k < |s| && !IsJsWhitespace(s[k]);
      assert |t| > 0 && t[k - (|s| - |t|)] == s[k];
      assert TrimEnd(t) != "";
    }
  }

  /** Trimming removes nothing from a string that is already trimmed. */
  lemma TrimIdempotent(s: string)
    ensures Trim(Trim(s)) == Trim(s)
  {
    var r := Trim(s);
    if |r| > 0 {
      assert r == TrimStart(s)[..|r|];
      assert !IsJsWhitespace(r[0]);
      assert TrimStart(r) == r;
      assert TrimEnd(r) == r;
    }
  }

  /** ASCII letters only: other code points are left as they are. */
  function ToLowerChar(c: char): (r: char)
    ensures 'A' <= c <= 'Z' ==> r as int == c as int + 32
    ensures !('A' <= c <= 'Z') ==> r == c
  {
    if 'A' <= c <= 'Z' then (c as int + 32) as char else c
  }

  /** `String.prototype.toLowerCase`, on ASCII letters. */
  function ToLower(s: string): (r: string)
    ensures |r| == |s|
    ensures forall i :: 0 <= i < |s| ==> r[i] == ToLowerChar(s[i])
  {
    if |s| == 0 then "" else [ToLowerChar(s[0])] + ToLower(s[1..])
  }

  /** `sub` occurs in `s` at position `i`. */
  predicate OccursAt(s: string, sub: string, i: int) {
    0 <= i <= |s| - |sub| && s[i..i + |sub|] == sub
  }

  /** `s.includes(sub)`: `sub` occurs in `s` starting at the head or further on. */
  predicate Contains(s: string, sub: string)
    decreases |s|
  {
    (|sub| <= |s| && s[..|sub|] == sub) || (|s| > 0 && Contains(s[1..], sub))
  }

  /** `Contains` holds exactly when `sub` occurs at some position of `s`. */
  lemma {:induction false} ContainsIff(s: string, sub: string)
    ensures Contains(s, sub) <==> exists i :: OccursAt(s, sub, i)
    decreases |s|
  {
    if |sub| <= |s| && s[..|sub|] == sub {
      assert OccursAt(s, sub, 0);
    } else if |s| > 0 {
      ContainsIff(s[1..], sub);
      if Contains(s[1..], sub) {
        var i :| OccursAt(s[1..], sub, i);
        assert s[i + 1..i + 1 + |sub|] == s[1..][i..i + |sub|];
        assert OccursAt(s, sub, i + 1);
      } else {
        forall i | OccursAt(s, sub, i)
          ensures false
        {
          if i > 0 {
            assert s[i..i + |sub|] == s[1..][i - 1..i - 1 + |sub|];
            assert OccursAt(s[1..], sub, i - 1);
          }
        }
      }
    } else {
      forall i | OccursAt(s, sub, i)
        ensures false
      {
      }
    }
  }
  /** Every string contains the empty string. */
  lemma ContainsEmpty(s: string)
    ensures Contains(s, "")
  {
    assert s[..0] == "";
  }
}

=== FILE: windows.dfy ===
/**
 * The half-open time windows the reports select records with: a local day,
 * a Monday-to-Monday week and a calendar month, plus the `period` query
 * parameter that chooses between them.
 */
module ReportWindows {
  import opened Wrappers
  import opened Calendar

  /** The records a report selects are those with `start <= t < end`. */
  datatype Window = Window(start: Time, end: Time)

  predicate InWindow(w: Window, t: Time) {
    w.start <= t < w.end
  }

  /** Local midnight of the reference time up to the next midnight. */
  function DayWindow(ref: Time): (w: Window)
    ensures InWindow(w, ref)
    ensures w.start % MsPerDay == 0
    ensures w.end == w.start + MsPerDay
  {
    var start := Midnight(ref);
    Window(start, start + MsPerDay)
  }

  /** Days back from the reference day to the Monday on or before it (Sunday counts as 6). */
  function DaysSinceMonday(day: int): (d: int)
    ensures 0 <= d <= 6
    ensures Weekday(day - d) == 1
  {
    (Weekday(day) + 6) % 7
  }

  /** The week starting at midnight of the Monday on or before the reference time. */
  function WeekWindow(ref: Time): (w: Window)
    ensures InWindow(w, ref)
    ensures w.start % MsPerDay == 0
    ensures Weekday(DayOf(w.start)) == 1
    ensures w.end == w.start + 7 * MsPerDay
  {
    var day := DayOf(ref);
    var monday := day - DaysSinceMonday(day);
    Window(monday * MsPerDay, (monday + 7) * MsPerDay)
  }

  /**
   * `new Date(year, monthIndex, 1)` up to `new Date(year, monthIndex + 1, 1)`:
   * the month index may run past 11 or below 0, and rolls into the
   * neighbouring years.
   */
  function MonthWindow(year: int, monthIndex: int): (w: Window)
    ensures w.start == MonthStart(year, monthIndex)
    ensures w.end - w.start == DaysInMonth(JsFullYear(year) + monthIndex / 12, monthIndex % 12 + 1) * MsPerDay
  {
    MonthStartNext(year, monthIndex);
    Window(MonthStart(year, monthIndex), MonthStart(year, monthIndex + 1))
  }

  /** December's window ends on the first of January of the following year. */
  lemma DecemberRollsOver(year: int)
    ensures MonthWindow(year, 11).end == DayNumber(JsFullYear(year) + 1, 1, 1) * MsPerDay
  {
    assert 12 / 12 == 1 && 12 % 12 + 1 == 1;
  }

  /** The month of a reference date (outside the two-digit years) contains it. */
  lemma MonthWindowContains(dt: LocalDateTime)
    requires ValidDateTime(dt)
    requires dt.year < 0 || dt.year > 99
    ensures InWindow(MonthWindow(dt.year, dt.month - 1), TimeOf(dt))
  {
    MonthStartBrackets(dt);
  }

  /** The report periods the sales-by-period query understands. */
  datatype Period = Daily | Weekly | Monthly

  function PeriodName(p: Period): string {
    match p
    case Daily => "daily"
    case Weekly => "weekly"
    case Monthly => "monthly"
  }

  /** An absent `period` means daily; any other spelling than the three names is refused. */
  function ParsePeriod(s: Option<string>): (r: Option<Period>)
    ensures s.None? ==> r == Some(Daily)
    ensures s.Some? ==> (r.Some? <==> s.value in {"daily", "weekly", "monthly"})
    ensures s.Some? && r.Some? ==> PeriodName(r.value) == s.value
  {
    match s
    case None => Some(Daily)
    case Some(name) =>
      if name == "daily" then Some(Daily)
      else if name == "weekly" then Some(Weekly)
      else if name == "monthly" then Some(Monthly)
      else None
  }

  lemma PeriodNameRoundTrip(p: Period)
    ensures ParsePeriod(Some(PeriodName(p))) == Some(p)
  {
  }

  /** The window a period selects around a reference date. */
  function PeriodWindow(p: Period, ref: LocalDateTime): (w: Window)
    requires ValidDateTime(ref)
    ensures p.Daily? ==> w == DayWindow(TimeOf(ref))
    ensures p.Weekly? ==> w == WeekWindow(TimeOf(ref))
    ensures p.Monthly? ==> w == MonthWindow(ref.year, ref.month - 1)
  {
    match p
    case Daily => DayWindow(TimeOf(ref))
    case Weekly => WeekWindow(TimeOf(ref))
    case Monthly => MonthWindow(ref.year, ref.month - 1)
  }

  /** Every period's window contains its reference date. */
  lemma PeriodWindowContains(p: Period, ref: LocalDateTime)
    requires ValidDateTime(ref)
    requires ref.year < 0 || ref.year > 99
    ensures InWindow(PeriodWindow(p, ref), TimeOf(ref))
  {
    var t := TimeOf(ref);
    match p
    case Daily =>
      assert PeriodWindow(p, ref) == DayWindow(t);
    case Weekly =>
      assert PeriodWindow(p, ref) == WeekWindow(t);
    case Monthly =>
      MonthWindowContains(ref);
      assert PeriodWindow(p, ref) == MonthWindow(ref.year, ref.month - 1);
  }

  /** A Wednesday afternoon's week runs from the Monday before to the Monday after. */
  lemma WednesdayWeek()
    ensures var w := WeekWindow(TimeOf(LocalDateTime(2024, 1, 17, 54_000_000)));
      w.start == TimeOf(LocalDateTime(2024, 1, 15, 0)) && w.end == TimeOf(LocalDateTime(2024, 1, 22, 0))
  {
    var t := TimeOf(LocalDateTime(2024, 1, 17, 54_000_000));
    assert DayNumber(2024, 1, 17) == 19739;
    assert DayOf(t) == 19739;
    assert Weekday(19739) == 3;
  }
}

=== FILE: wrappers.dfy ===
/** Failure-compatible wrappers shared by every module of the model. */
module Wrappers {

  /** A value that may be absent: a missing request field, a `null` user. */
  datatype Option<+T> = None | Some(value: T) {
    /** The value, or `default` when absent (the JavaScript `x || default` idiom). */
    function GetOr(default: T): T {
      match this
      case Some(v) => v
      case None => default
    }
  }

  /** The outcome of an operation that either produces a value or fails with an error. */
  datatype Result<+R, +E> = Success(value: R) | Failure(error: E) {
    predicate IsFailure() {
      Failure?
    }

    function PropagateFailure<U>(): Result<U, E>
      requires Failure?
    {
      Failure(error)
    }

    function Extract(): R
      requires Success?
    {
      value
    }
  }
}
